=== FILE: README.md ===
# FSND Flask apps in Dafny

This project models the decision logic of the small Flask back ends in the FSND
repository and proves properties of it. That logic sits between the web framework
and the database:

- **Coffee shop authorization** (`auth.py`). Reading a `Bearer` token from the
  `Authorization` header, choosing the signing key by `kid`, mapping the token
  library's outcomes to `AuthError`s, checking the `permissions` claim, and composing
  all of this the way `requires_auth` does.
- **Coffee shop drink routes** (`api.py`, `models.py`). The permission guarding
  each route; the partial-update rule of `PATCH` and what the text columns accept
  at commit time (bound values, the unique title); the short and long forms a
  drink is shown in; the `DELETE` answer; and the error handlers, which answer
  every `AuthError` with 401.
- **FlaskRecap**. The greeting dictionary with its 404 and 422 cases, and a second
  bearer-header parser that accepts exactly what the coffee shop's parser accepts.
- **The two trivia back ends**:
  - page slicing and the shape of each list response;
  - delete-or-404;
  - substring search;
  - the distinct-category set of the second back end;
  - the quiz candidate filter, with the random pick modelled as "any candidate".
- **Fyyur**:
  - grouping venues into areas keyed by `city + state`;
  - splitting a venue's or artist's shows into upcoming and past around the current time;
  - the seeking flag and description derived from a submitted form;
  - the rows written by the create and edit submissions.

Database tables are sequences or maps passed as arguments. The key set, the token
library, the decoder of stored recipe text, the current time (an integer) and form
validation are inputs too. A
handler's abnormal ends are values:

- `Http.Fault.Abort(status)` is Flask's `abort(status)`.
- `Http.Fault.Uncaught` is any other escaping exception, which Flask answers with 500.
- `Auth.Fault.Raised(e)` is a raised `AuthError`.

Python semantics the code relies on are written out explicitly:

- `str.split(" ")` keeps empty pieces.
- Truthiness.
- `in` on lists, strings and dictionaries, which raises on anything else.
- `dict.get`.
- `one_or_none()` followed by an attribute read.

Files and modules:

| file | module | contents |
|---|---|---|
| `wrappers.dfy` | `Wrappers` | `Option`, `Result` |
| `http.dfy` | `Http` | handler faults |
| `seqs.dfy` | `Seqs` | `Filter`, `First`, `Last` and filter lemmas |
| `pystr.dfy` | `PyStr` | `split`/`join`, substring test, ASCII `lower`, `str()` of an integer |
| `json.dfy` | `Json` | JSON values, truthiness, `get`, `in`, binding to a text column |
| `auth.dfy` | `Auth` | coffee shop `auth.py` |
| `coffee_shop.dfy` | `CoffeeShop` | coffee shop `api.py` |
| `flask_recap.dfy` | `FlaskRecap` | `FlaskRecap.py` |
| `question_bank.dfy` | `QuestionBank` | logic shared by both trivia back ends |
| `trivia.dfy` | `Trivia` | first trivia back end |
| `trivia_starter.dfy` | `TriviaStarter` | second trivia back end |
| `fyyur_listings.dfy` | `FyyurListings` | Fyyur venue areas and show listings |
| `fyyur_forms.dfy` | `FyyurForms` | Fyyur form submissions |

## Model

| member | source | states |
|---|---|---|
| PyStr.Split | projects/03_coffee_shop_full_stack/starter_code/backend/src/auth/auth.py:33 | `split(" ")` always yields at least one piece and no piece contains the separator |
| PyStr.JoinSplit | projects/03_coffee_shop_full_stack/starter_code/backend/src/auth/auth.py:33 | the pieces of a split, joined with the separator, give back the header text |
| PyStr.SplitJoin | projects/03_coffee_shop_full_stack/starter_code/backend/src/auth/auth.py:33 | splitting a join of separator-free pieces gives back the pieces |
| PyStr.TwoPieces | projects/03_coffee_shop_full_stack/starter_code/backend/src/auth/auth.py:33-34 | a text splits into exactly `[a, b]` iff it is `a`, one separator, then `b`, with neither piece holding the separator |
| PyStr.Contains | projects/02_trivia_api/starter/backend/flaskr/__init__.py:134-136 | the substring test holds exactly when the needle occurs at some position of the text |
| PyStr.Lower | projects/02_trivia_api/starter/backend/flaskr/__init__.py:71 | lower-casing keeps the length, maps each character, and leaves no upper-case ASCII letter |
| PyStr.IntText | projects/02_trivia_api/starter/backend/flaskr/__init__.py:135 | `str(n)` is non-empty, starts with `-` exactly for a negative number, and is otherwise the decimal digits |
| PyStr.DigitsRoundTrip | projects/02_trivia_api/starter/backend/flaskr/__init__.py:135 | reading back the decimal digits of a number gives the number |
| PyStr.IntTextInjective | projects/02_trivia_api/starter/backend/flaskr/__init__.py:135 | distinct integers have distinct texts, so a number term names one number |
| Json.Get | projects/03_coffee_shop_full_stack/starter_code/backend/src/api.py:56-57 | `get` on a dictionary gives the entry or `None` for a missing key, and fails on anything that is not a dictionary |
| Json.StrIn | projects/03_coffee_shop_full_stack/starter_code/backend/src/auth/auth.py:51 | `in` is list membership, a substring test or a key test, and raises exactly for `None`, booleans and numbers |
| Json.StrInStrList | projects/03_coffee_shop_full_stack/starter_code/backend/src/auth/auth.py:51 | on a list of strings `in` is plain membership |
| Json.IntIn | projects/02_trivia_api/starter/backend/flaskr/__init__.py:200-202 | `id in x` is membership by Python `==` for a list (numbers by value, booleans as 1 and 0), never true for a dictionary, and raises for anything else |
| Json.IntInIntList | projects/02_trivia_api/starter/backend/flaskr/__init__.py:200-202 | on a list of integers `in` is plain membership |
| Json.SqlText | projects/03_coffee_shop_full_stack/starter_code/backend/src/database/models.py:38-43 | a value bound to a text column: `None` is NULL, a string is kept, a number is its decimal text, and a list or dictionary cannot be bound |
| Seqs.Filter | projects/02_trivia_api/starter/backend/flaskr/__init__.py:200-202 | the filter keeps exactly the elements that satisfy the predicate, and nothing longer than the input |
| Seqs.First | projects/01_fyyur/starter_code/app.py:101 | the lookup finds nothing iff no element qualifies, and otherwise the first one that does |
| Seqs.FilterPartition | projects/01_fyyur/starter_code/app.py:105-122 | a predicate and its negation split a sequence into two parts that together are the whole, as a multiset and in length |
| Auth.GetTokenAuthHeader | projects/03_coffee_shop_full_stack/starter_code/backend/src/auth/auth.py:30-38 | every refusal is `abort(401)`; an accepted token is what follows `Bearer ` in the header and holds no space |
| Auth.TokenAcceptance | projects/03_coffee_shop_full_stack/starter_code/backend/src/auth/auth.py:32-38 | a header yields token `t` iff it reads exactly `Bearer`, one space, then `t`, and `t` has no space |
| Auth.EmptyTokenAccepted | projects/03_coffee_shop_full_stack/starter_code/backend/src/auth/auth.py:33-35 | `Bearer ` with nothing after it yields the empty token |
| Auth.DoubledSpaceRefused | projects/03_coffee_shop_full_stack/starter_code/backend/src/auth/auth.py:33-38 | `Bearer  x` (two spaces) is refused with 401 |
| Auth.LowerCaseSchemeRefused | projects/03_coffee_shop_full_stack/starter_code/backend/src/auth/auth.py:34-38 | the scheme is matched case-sensitively: `bearer x` is refused with 401 |
| Auth.BareSchemeRefused | projects/03_coffee_shop_full_stack/starter_code/backend/src/auth/auth.py:31-38 | a bare `Bearer` and a missing header are both refused with 401 |
| Auth.CheckPermissions | projects/03_coffee_shop_full_stack/starter_code/backend/src/auth/auth.py:41-55 | with no `permissions` claim the check fails with `invalid_claims`/400, whatever permission is asked for; with a list claim it succeeds iff the permission is listed and otherwise fails with `unauthorized`/403 |
| Auth.PermissionMembership | projects/03_coffee_shop_full_stack/starter_code/backend/src/auth/auth.py:51-55 | for a claim listing the granted permissions, the check returns true iff the required one is granted, and fails with 403 otherwise |
| Auth.MissingClaimIgnoresPermission | projects/03_coffee_shop_full_stack/starter_code/backend/src/auth/auth.py:42-49 | without the claim, every required permission meets the same 400 failure |
| Auth.SelectKey | projects/03_coffee_shop_full_stack/starter_code/backend/src/auth/auth.py:62-71 | there is no key iff no entry carries the token's `kid`; otherwise the key is the fields of a matching entry with no later match, i.e. the last match |
| Auth.FindSigningKey | projects/03_coffee_shop_full_stack/starter_code/backend/src/auth/auth.py:62-71 | the overwriting loop over the key set computes the last-match key selection |
| Auth.DecodeResult | projects/03_coffee_shop_full_stack/starter_code/backend/src/auth/auth.py:73-103 | success returns the payload; expired gives `token_expired`, a claims mismatch gives `invalid_claims`, any other failure gives `invalid_header`, all with 401 |
| Auth.VerifyDecodeJwt | projects/03_coffee_shop_full_stack/starter_code/backend/src/auth/auth.py:58-106 | an unreadable header escapes; a header without `kid` gives `invalid_header`/401 for an empty key set and escapes otherwise, since the `kid` is first read inside the loop; a `kid` no key carries gives `invalid_header`/401; a payload is only ever the decoder's answer for some key; every raised error carries 401 |
| Auth.NoKeyNoDecode | projects/03_coffee_shop_full_stack/starter_code/backend/src/auth/auth.py:72-106 | when no key matches, decoding is never attempted: any decoder gives the same `invalid_header` answer |
| Auth.DecodeUsesLastMatchingKey | projects/03_coffee_shop_full_stack/starter_code/backend/src/auth/auth.py:62-80 | the decoder is called with the last matching key, `RS256`, audience `drinks` and issuer `https://ronak-dev.auth0.com/` |
| Auth.RequiresAuth | projects/03_coffee_shop_full_stack/starter_code/backend/src/auth/auth.py:109-121 | a bad header aborts with 401; the handler's result is returned only after the header and the token were both accepted and the permission gate (`Auth.PermissionGate`: skipped for the empty permission, else `check_permissions`) passed, and the handler gets the decoded payload |
| Auth.PipelineOrder | projects/03_coffee_shop_full_stack/starter_code/backend/src/auth/auth.py:113-117 | extract, verify and check run in that order, and the first failure is the answer |
| Auth.FailureSkipsHandler | projects/03_coffee_shop_full_stack/starter_code/backend/src/auth/auth.py:113-117 | a refused request never reaches the handler: replacing the handler changes nothing |
| Auth.EmptyPermissionSkipsCheck | projects/03_coffee_shop_full_stack/starter_code/backend/src/auth/auth.py:109-117 | with the empty permission, any verified payload reaches the handler, even one without `permissions` |
| Auth.GrantExample | projects/03_coffee_shop_full_stack/starter_code/backend/src/auth/auth.py:113-117 | a token granting only `get:drinks-detail` is refused `post:drinks` with 403 and admitted to `get:drinks-detail` |
| FlaskRecap.GreetingOne | FlaskRecap/FlaskRecap.py:19-25 | a lookup succeeds iff the language is in the map, returns its greeting, and otherwise aborts with 404 |
| FlaskRecap.GreetingAdd | FlaskRecap/FlaskRecap.py:27-33 | a body without `lang` or `greeting` aborts with 422; otherwise `lang` maps to the new greeting and every other language keeps its greeting |
| FlaskRecap.InitialGreetings | FlaskRecap/FlaskRecap.py:5-13 | the server starts with the seven languages of the module-level dictionary, English greeting `hello`, and any other language answers 404 |
| FlaskRecap.AddThenLookup | FlaskRecap/FlaskRecap.py:22-33 | after an add, a lookup of that language returns the new greeting and every other lookup answers as before |
| FlaskRecap.AddIdempotent | FlaskRecap/FlaskRecap.py:32-33 | adding the same pair twice equals adding it once |
| FlaskRecap.BearerToken | FlaskRecap/FlaskRecap.py:35-45 | every refusal of the `/headers` route is `abort(401)` |
| FlaskRecap.SameRuleAsCoffeeShop | FlaskRecap/FlaskRecap.py:37-45 | the route accepts exactly the headers the coffee shop parser accepts, returns the same token, and refuses the rest with 401 |
| FlaskRecap.BearerTokenShape | FlaskRecap/FlaskRecap.py:37-45 | the route echoes `t` iff the header is `Bearer `, then `t`, with no space in `t` |
| CoffeeShop.PermissionTable | projects/03_coffee_shop_full_stack/starter_code/backend/src/api.py:18-71 | only `GET /drinks` is public; each protected route's permission is `<its method>:<resource>`, and no two endpoints share a permission |
| CoffeeShop.UpdateDrink | projects/03_coffee_shop_full_stack/starter_code/backend/src/api.py:48-63 | an unknown id aborts with 404 before the body is read; a body that is not an object raises; otherwise the patch succeeds exactly when no truthy new value is a list or dictionary and the resulting title is no other row's, and then the id is kept, the title becomes the truthy new title's column text, and the recipe the truthy new recipe's text, stored without serializing |
| CoffeeShop.EmptyPatchKeepsDrink | projects/03_coffee_shop_full_stack/starter_code/backend/src/api.py:58-61 | a body with no fields, or only falsy ones, leaves the drink as it was |
| CoffeeShop.PatchIdempotent | projects/03_coffee_shop_full_stack/starter_code/backend/src/api.py:55-62 | patching twice with the same body has the effect of patching once |
| CoffeeShop.PatchListRecipeFails | projects/03_coffee_shop_full_stack/starter_code/backend/src/api.py:60-62 | a non-empty list as the new recipe, the shape `models.py` documents, makes the patch fail and nothing is stored |
| CoffeeShop.InsertDrink | projects/03_coffee_shop_full_stack/starter_code/backend/src/api.py:37-45 | a body that is not an object raises; otherwise the insert succeeds exactly when the title can be bound to its text column and no other row has it, and then the row has the fresh id, the title's column text and the serialized recipe |
| CoffeeShop.RemoveDrink | projects/03_coffee_shop_full_stack/starter_code/backend/src/api.py:66-71 | with the delete committed (see Findings): the answer is 200 with the requested id whether or not a row existed; that id is gone afterwards and every other row is kept |
| CoffeeShop.RemoveIdempotent | projects/03_coffee_shop_full_stack/starter_code/backend/src/api.py:68-71 | deleting an id twice gives the same table and answer as deleting it once |
| CoffeeShop.RemoveDrinkAsWritten | projects/03_coffee_shop_full_stack/starter_code/backend/src/api.py:66-71 | as written: the answer is 200 with the requested id and the table is as it was |
| CoffeeShop.DeleteAsWrittenKeepsRow | projects/03_coffee_shop_full_stack/starter_code/backend/src/api.py:70-71 | a drink reported deleted is still in the table |
| CoffeeShop.Long | projects/03_coffee_shop_full_stack/starter_code/backend/src/database/models.py:60-61 | the long form succeeds exactly when the recipe text decodes, and then shows the whole decoded recipe; a serialized recipe always decodes to what was serialized |
| CoffeeShop.Short | projects/03_coffee_shop_full_stack/starter_code/backend/src/database/models.py:50-53 | the short form succeeds exactly when the recipe decodes to a dictionary, and then its recipe has exactly `color` and `parts`, each the recipe's entry or `None` |
| CoffeeShop.RenderAll | projects/03_coffee_shop_full_stack/starter_code/backend/src/api.py:20-23 | a listing succeeds exactly when every row renders, and then holds every row's rendering under its id |
| CoffeeShop.CreatedDrinkReadsBack | projects/03_coffee_shop_full_stack/starter_code/backend/src/api.py:43-45 | a created drink reads back in the long form with the recipe it was given |
| CoffeeShop.ListRecipeBreaksListing | projects/03_coffee_shop_full_stack/starter_code/backend/src/database/models.py:50-53 | after a drink is created with a recipe that is not a dictionary, `GET /drinks` fails |
| CoffeeShop.Handle | projects/03_coffee_shop_full_stack/starter_code/backend/src/api.py:18-71 | listings leave the table and answer 200 exactly when every row renders; a failed create leaves the table; a successful one answers 200 with the new row; a patch answers its fault, or commits and answers 200 exactly when the row renders; a delete is the corrected, committing `CoffeeShop.RemoveDrink`, not the uncommitted delete of line 70 (see Findings) |
| CoffeeShop.FaultResponse | projects/03_coffee_shop_full_stack/starter_code/backend/src/api.py:77-92 | every `AuthError` is answered 401 `Not Authorized`; an abort keeps its status; an escaped exception gives 500; the table is unchanged |
| CoffeeShop.Serve | projects/03_coffee_shop_full_stack/starter_code/backend/src/api.py:18-71 | `GET /drinks` leaves the table untouched and answers 200 exactly when every recipe decodes to a dictionary, 500 otherwise; a successful delete echoes the id and, as the corrected `CoffeeShop.RemoveDrink` does (see Findings), removes that row; a non-200 answer leaves the table as it was, except a `PATCH` whose answer failed after its commit |
| CoffeeShop.ServeKeepsStoreValid | projects/03_coffee_shop_full_stack/starter_code/backend/src/database/models.py:36-43 | every request keeps each row under its own id and the titles unique |
| CoffeeShop.ListingNeedsNoToken | projects/03_coffee_shop_full_stack/starter_code/backend/src/api.py:18-24 | `GET /drinks` answers the same whatever the headers, keys and token library, never with an authorization error, and with 200 exactly when every stored recipe decodes to a dictionary |
| CoffeeShop.AuthErrorsAnswer401 | projects/03_coffee_shop_full_stack/starter_code/backend/src/api.py:90-92 | an `AuthError` on a protected route, whatever status it carried, is answered 401 with the table untouched |
| CoffeeShop.MissingTokenRefused | projects/03_coffee_shop_full_stack/starter_code/backend/src/api.py:27-71 | a protected route without a usable bearer header is answered 401 and the table is untouched |
| CoffeeShop.PatchUnknownIdNotFound | projects/03_coffee_shop_full_stack/starter_code/backend/src/api.py:51-54 | an authorized PATCH of an unknown id is answered 404 `resource not found`, whatever the body |
| QuestionBank.PageNumber | projects/02_trivia_api/starter/backend/flaskr/__init__.py:58 | the page defaults to 1 when the argument is absent and is the argument otherwise |
| QuestionBank.Page | projects/02_trivia_api/starter/backend/flaskr/__init__.py:59-62 | a page holds at most 10 questions, exactly the table's questions from `(page-1)*10` on in order, and is empty past the end |
| QuestionBank.EveryQuestionOnItsPage | projects/02_trivia_api/starter/backend/flaskr/__init__.py:59-62 | the pages tile the table: question `i` is entry `i % 10` of page `i / 10 + 1` |
| QuestionBank.OneOrNone | projects/02_trivia_api/starter/backend/flaskr/__init__.py:69-71 | the lookup yields the match iff there is exactly one; none or several make the request fail with 500 |
| QuestionBank.CategoryIdByType | projects/02_trivia_api/starter/backend/flaskr/__init__.py:196 | the lookup succeeds exactly when one category has the type, and then yields that category's id; otherwise it fails with 500 |
| QuestionBank.DeleteQuestion | projects/02_trivia_api/starter/backend/flaskr/__init__.py:92-100 | deleting aborts with 404 iff no question has the id; otherwise exactly the questions with other ids remain |
| QuestionBank.DeleteRemovesOne | projects/02_trivia_api/starter/backend/flaskr/__init__.py:95-97 | with unique ids, a delete removes exactly one question |
| QuestionBank.SearchText | projects/02_trivia_api/starter/backend/flaskr/__init__.py:135 | the search text is Python's `str()` of the term: a string itself, `None` as `None`, booleans as `True`/`False`, numbers as their decimal text |
| QuestionBank.SearchTerm | projects/02_trivia_api/starter/backend/flaskr/__init__.py:133-135 | reading the term fails with 500 exactly when the body is not a JSON object; a missing term searches for `None` |
| QuestionBank.NumberTermIsItsDigits | projects/02_trivia_api/starter/backend/flaskr/__init__.py:135 | a number and the string of its digits search for the same questions |
| QuestionBank.Search | projects/02_trivia_api/starter/backend/flaskr/__init__.py:134-136 | the results are exactly the questions whose text contains the search text |
| QuestionBank.InCategory | projects/02_trivia_api/starter/backend/flaskr/__init__.py:162 | the results are exactly the questions of the category |
| QuestionBank.ListMatches | projects/02_trivia_api/starter/backend/flaskr/__init__.py:163-174 | `totalQuestions` is the number of matches; `currentCategory` is `None` iff there is no match, and otherwise the last match's category |
| QuestionBank.CategoryTypes | projects/02_trivia_api/starter/backend/flaskr/__init__.py:35-41 | `GET /categories` lists the type of every category, in table order |
| QuestionBank.ParseQuizRequest | projects/02_trivia_api/starter/backend/flaskr/__init__.py:191-193 | reading the request fails with 500 exactly when the body is not a JSON object; the two fields are what `get` gives, `None` when missing |
| QuestionBank.QuizPool | projects/02_trivia_api/starter/backend/flaskr/__init__.py:194-199 | a category that is not a dictionary, or whose type is not a string (PostgreSQL cannot compare the text column with it, and `None` matches no category), fails with 500; `click` gives every question; another string type gives the questions of the one category with that type, and fails unless exactly one has it |
| QuestionBank.QuizCandidates | projects/02_trivia_api/starter/backend/flaskr/__init__.py:200-202 | the candidates exist exactly when the pool does and `previous_questions` is a list or a dictionary or the pool is empty; they are then the pool's questions not in `previous_questions`, in order |
| QuestionBank.CandidatesComplete | projects/02_trivia_api/starter/backend/flaskr/__init__.py:198-202 | for `click` and a list of previous ids, every question not asked before is a candidate |
| QuestionBank.CategoryCandidatesComplete | projects/02_trivia_api/starter/backend/flaskr/__init__.py:194-202 | for a type naming exactly one category, a question is a candidate exactly when it is in that category and was not asked before |
| QuestionBank.QuizQuestion | projects/02_trivia_api/starter/backend/flaskr/__init__.py:189-205 | a body that is not a JSON object fails with 500; the request fails exactly when reading it or finding the candidates does; the pick is a candidate, never in `previous_questions`, and is `None` exactly when no candidate is left |
| Trivia.CategoryNames | projects/02_trivia_api/starter/backend/flaskr/__init__.py:66-72 | one lower-cased type per question, that of its category; this fails with 500 iff some question lacks a unique category |
| Trivia.GetQuestions | projects/02_trivia_api/starter/backend/flaskr/__init__.py:56-82 | the response holds the page's questions, the category names looked up for exactly those questions, the last one's category (or `None` for an empty page) and the size of the whole table; it fails exactly when some question on the page lacks a unique category |
| Trivia.PagingDefaults | projects/02_trivia_api/starter/backend/flaskr/__init__.py:58-74 | no page argument means page 1; every page has at most 10 questions; the total does not depend on the page |
| Trivia.SearchQuestions | projects/02_trivia_api/starter/backend/flaskr/__init__.py:131-149 | a body that is not a JSON object fails with 500; otherwise the results are exactly the questions containing the search text, counted, with a current category exactly when there is a result |
| QuestionBank.QuestionsByCategory | projects/02_trivia_api/starter/backend/flaskr/__init__.py:160-175 | the results are exactly the category's questions, counted, with the category as `currentCategory` unless there is none; the second back end's route (projects/starter/backend/src/api.py lines 104-119) is the same function |
| TriviaStarter.GetQuestions | projects/starter/backend/src/api.py:35-55 | the response holds the page (at most 10, page 1 by default), the table size, an empty `currentCategory` and every category type |
| TriviaStarter.DistinctCategories | projects/starter/backend/src/api.py:91-99 | the categories of the matches, each once: no duplicates, each one some match's, and every match's category is present |
| TriviaStarter.SearchQuestions | projects/starter/backend/src/api.py:83-101 | a body that is not a JSON object fails with 500; otherwise the results are the matches and are counted, and `currentCategory` holds exactly the matches' categories, without repetition |
| TriviaStarter.DeleteQuestion | projects/starter/backend/src/api.py:58-66 | deleting aborts with 404 iff no question has the id, and otherwise echoes the id |
| TriviaStarter.QuizQuestion | projects/starter/backend/src/api.py:122-140 | a body that is not a JSON object fails with 500; the pick is never in `previous_questions` and is `None` exactly when no candidate is left |
| FyyurListings.UpcomingAndPastPartition | projects/01_fyyur/starter_code/app.py:105-122 | the upcoming (`start > now`) and past (`start <= now`) queries split a venue's or artist's shows, as a multiset and in number |
| FyyurListings.Listing | projects/01_fyyur/starter_code/app.py:104-122 | each count equals its list's length; upcoming shows start after now, past ones not; together they are all the party's shows |
| FyyurListings.ShowVenue | projects/01_fyyur/starter_code/app.py:99-124 | an unknown venue id yields the 404 template; otherwise the page shows that venue with its split show listing |
| FyyurListings.ShowArtist | projects/01_fyyur/starter_code/app.py:199-224 | an unknown artist id yields the 404 template; otherwise the page shows that artist with its split show listing |
| FyyurListings.FindArea | projects/01_fyyur/starter_code/app.py:62 | the area found is filed under the key, and no area is found only when none is |
| FyyurListings.GroupingSpec | projects/01_fyyur/starter_code/app.py:53-82 | `FyyurListings.GroupVenues` (folding `FyyurListings.AddVenue` over the venues) gives areas in order of first appearance of `city + state`; each area lists, in query order, the entries (id, name, upcoming count) of exactly the venues with its key; its city and state are those of the first such venue |
| FyyurListings.VenueInExactlyOneArea | projects/01_fyyur/starter_code/app.py:58-81 | every venue's entry is in the one area filed under its own `city + state` |
| FyyurForms.Get | projects/01_fyyur/starter_code/app.py:140-143 | `form.get` finds a value iff the field was submitted, and returns its first value |
| FyyurForms.GetList | projects/01_fyyur/starter_code/app.py:146 | `form.getlist` gives exactly the values submitted under the field, in submission order, and is non-empty iff the field was submitted |
| FyyurForms.FieldValue | projects/01_fyyur/starter_code/app.py:145-153 | a column is `None` iff its field is missing, and otherwise the first submitted value |
| FyyurForms.SeekingFlag | projects/01_fyyur/starter_code/app.py:138-141 | the seeking flag is true iff the field is present and its value is `y` |
| FyyurForms.SeekingDescription | projects/01_fyyur/starter_code/app.py:139-143 | the description is the submitted one, or `""` when the field is absent |
| FyyurForms.NewVenue | projects/01_fyyur/starter_code/app.py:138-156 | the new venue has the derived seeking flag, the submitted description (or `""`), all submitted genres, and the submitted name, `None` iff none was given |
| FyyurForms.NewArtist | projects/01_fyyur/starter_code/app.py:343-360 | the new artist has the derived seeking flag, the submitted description (or `""`), all submitted genres, and the submitted name, `None` iff none was given |
| FyyurForms.CreateSubmission | projects/01_fyyur/starter_code/app.py:135-165 | the row is added under a fresh id unless the database refuses it, and nothing else changes; the flash names the submitted name, and a missing name makes the request fail with 500 |
| FyyurForms.CreateVenue | projects/01_fyyur/starter_code/app.py:135-165 | a venue creation stores the form's venue unless the database refuses it, keeps every other venue, and fails with 500 iff no name was submitted |
| FyyurForms.CreateArtist | projects/01_fyyur/starter_code/app.py:340-370 | an artist creation stores the form's artist unless the database refuses it, keeps every other artist, and fails with 500 iff no name was submitted |
| FyyurForms.NamelessVenueInsertedThenFails | projects/01_fyyur/starter_code/app.py:144-158 | a venue form without a name, when the database accepts the row, is stored with a `None` name and then answered 500 |
| FyyurForms.CreatedVenueReadsBack | projects/01_fyyur/starter_code/app.py:138-156 | a stored venue seeks talent iff `y` was submitted, and keeps the submitted description |
| FyyurForms.CreatedArtistReadsBack | projects/01_fyyur/starter_code/app.py:343-360 | a created artist reads back the submitted name, every submitted genre in order, the seeking flag for `y`, and the description |
| FyyurForms.EditArtist | projects/01_fyyur/starter_code/app.py:252-278 | 404 iff the artist is unknown or the form invalid; otherwise only that artist changes, to the form's values with the first genre only |
| FyyurForms.EditVenueAsWritten | projects/01_fyyur/starter_code/app.py:302-329 | 404 iff the venue is unknown or the form invalid; otherwise only that venue changes, to the form's values with the first genre only, except that its name is the seeking-talent boolean and its seeking columns keep their old values |
| FyyurForms.EditVenueAsWrittenLosesName | projects/01_fyyur/starter_code/app.py:314-324 | renaming a venue to `The Musical Hop` while ticking "seeking talent" stores the seeking flag `True` in place of its name and leaves its seeking flag false |
| FyyurForms.EditVenue | projects/01_fyyur/starter_code/app.py:302-329 | 404 iff the venue is unknown or the form invalid; otherwise only that venue changes, to the form's values with the first genre only, with the derived seeking columns |
| FyyurForms.EditVenueIdempotent | projects/01_fyyur/starter_code/app.py:306-326 | an edit reads back the form's name and seeking flag, and repeating it changes nothing |

## Left out

- The key set download (`urlopen`, `json.loads`) and the token library (`jose`) are not modelled. The key set is a sequence of key records, and `Auth.Jose` says what reading a token's header and decoding it give. Signature, expiry, audience and issuer checks happen inside the library and appear only as its four outcomes.
- A key record without one of the fields the loop reads (a `KeyError` in the source) is not modelled: `Auth.Jwk` always has every field.
- Header names are compared exactly (`Authorization`); Flask's case-insensitive header lookup is not modelled.
- The database engine (SQLAlchemy queries, `paginate`, sessions, `db_drop_and_create_all`) is not modelled. Tables are sequences in query order, or maps keyed by primary key, passed in and returned; of a commit, only the coffee shop's column checks listed above are modelled.
- `paginate(..., error_out=False)` is taken to serve page 1 for a page number below 1.
- A non-numeric `page` argument (`int(...)` raising) is not modelled: `QuestionBank.PageNumber` receives the parsed number or its absence.
- `QuestionBank.Search`: `LIKE` is read as a plain case-sensitive substring test. Wildcards (`%`, `_`) inside the term and database-dependent case folding are not modelled.
- `PyStr.Lower` lower-cases only the ASCII letters; Python's full Unicode `lower()` is not modelled.
- Category ids are integers throughout. The second back end's `str(category_id)` comparison is taken as equality on ids.
- The second back end collects `currentCategory` in a Python `set`, whose order is unspecified. `TriviaStarter.DistinctCategories` fixes first-appearance order, and its contract speaks only of contents.
- `create_question` in both trivia back ends (`Question(**data)` and an insert) is a pass-through to the database constructor and is not modelled. The trivia error handlers' JSON bodies are not modelled either; a fault carries only its status.
- `random.choice` is modelled as "some candidate", chosen by `:|` in `QuestionBank.QuizQuestion`.
- The JSON encoder and decoder are not modelled. A recipe written by `create_drinks` is kept as the value it serialized, which `json.loads` gives back; a recipe text written by `update_drinks` is decoded by an input `loads`.
- JSON numbers are integers: floating-point values (a `parts` of `1.5`, say) are not modelled.
- Listings are maps keyed by id: the row order of `Drink.query.all()` is not modelled.
- `CoffeeShop.InsertDrink`: the id the database assigns is an input (`nextId`, required to be unused). The database errors modelled are the unique-title constraint and a list or dictionary that cannot be bound; the `String(80)`/`String(180)` lengths, which SQLite does not enforce, are not.
- `Json.SqlText` follows SQLite's text affinity, and is used only for the coffee shop's `String` columns. The trivia back ends run on PostgreSQL, where `QuestionBank.QuizPool` treats every non-string category type as raising.
- `QuestionBank.SearchText`: Python's `str()` of a list or dictionary search term is an input `repr`.
- `CoffeeShop.Serve`, `CoffeeShop.Handle`: the delete route uses the corrected `CoffeeShop.RemoveDrink` (see Findings), not api.py:70 as written, whose uncommitted delete leaves the row in the table; `CoffeeShop.RemoveDrinkAsWritten` is that route as written.
- `FyyurForms.EditVenueAsWritten`: the overwritten name is kept as the Python boolean; the text the `String` column stores for it is not modelled.
- `CoffeeShop.RemoveDrink` and `CoffeeShop.UpdateDrink` take the id as an integer; the URL gives it as a string.
- `FlaskRecap`'s module-level `greetings` dictionary is passed in and returned instead of mutated. `greeting_all`, which returns it unchanged, is not modelled separately. `FlaskRecap.GreetingAdd` takes a string-to-string body; a missing or non-object JSON body (`None` from `get_json`) is not modelled.
- Templates, `flash` rendering, redirects, CORS headers, logging setup and `format_datetime` are not modelled. The Fyyur detail pages' "not found" is the 404 template rendered with the default status 200, as in the source.
- Fyyur's `index`, `search_venues`, `search_artists`, `artists`, `shows`, `create_show_submission`, `delete_venue` and the GET form pages are not modelled. They only pass query results to templates.
- Wall-clock time is an integer `now`. The source compares `start_time` with a formatted timestamp string; that string ordering is taken to be time ordering.
- WTForms validation (`form.validate()`) is an input `valid` to the edit submissions.
- `FyyurListings.GroupVenues`: a venue whose city or state is NULL makes `city + state` raise in the source; the model's venues always have text for both.
- The trivia back ends' `models.py`, Fyyur's `manage.py`, `environment.ts` and `test_flaskr.py` are not part of this model. The quiz test's property, that the pick is never a previous question, is stated by `QuestionBank.QuizQuestion`.

## Findings

| source | as written | input that shows it | evidently intended | confidence | as-written member | corrected member |
|---|---|---|---|---|---|---|
| projects/01_fyyur/starter_code/app.py:323-324 | after copying the form, a valid venue edit assigns `seeking_description` and then `seeking_talent` to `venue_data.name`; the venue's `seeking_talent` and `seeking_description` columns are never written | a venue edit with `name=The Musical Hop` and `seeking_talent=y` stores the text of `True` as the name and keeps the old seeking flag | assign the two values to `seeking_description` and `seeking_talent`, as the artist edit does at lines 272-273 | not executed | FyyurForms.EditVenueAsWritten, FyyurForms.EditVenueAsWrittenLosesName | FyyurForms.EditVenue, FyyurForms.EditVenueIdempotent |
| projects/03_coffee_shop_full_stack/starter_code/backend/src/api.py:70 | `delete_drink` runs a query-level delete and never commits it, so the session teardown at the end of the request rolls it back | `DELETE /drinks/1` with drink 1 present answers 200 with `"delete": "1"`, and drink 1 is still listed by the next `GET /drinks` | commit the delete, as `Drink.delete` does (`models.py` lines 67-69) | not executed | CoffeeShop.RemoveDrinkAsWritten, CoffeeShop.DeleteAsWrittenKeepsRow | CoffeeShop.RemoveDrink, CoffeeShop.RemoveIdempotent |

=== FILE: auth.dfy ===
/** The coffee shop's bearer-token authorization: reading the `Authorization`
    header, choosing the signing key by `kid`, turning decode outcomes into typed
    errors, checking the `permissions` claim, and composing the three steps the
    way the `requires_auth` decorator does. The network fetch of the key set and
    the token library are inputs: the key set is a sequence of key records and the
    library is a `Jose` value that says what reading and decoding a token give. */
module Auth {
  import opened Wrappers
  import PyStr
  import Json

  const AUTH0_DOMAIN: string := "ronak-dev.auth0.com"
  const ALGORITHMS: seq<string> := ["RS256"]
  const API_AUDIENCE: string := "drinks"
  const ISSUER: string := "https://" + AUTH0_DOMAIN + "/"

  const AUTHORIZATION: string := "Authorization"
  const BEARER: string := "Bearer"
  const PERMISSIONS: string := "permissions"

  datatype ErrorCode = InvalidClaims | Unauthorized | TokenExpired | InvalidHeader

  /** The source's `AuthError(error, status_code)`; `error` holds a code and a description. */
  datatype AuthError = AuthError(code: ErrorCode, description: string, statusCode: int)

  /** How a guarded request can fail: Flask's `abort(status)`, a raised
      `AuthError`, or another exception that escapes (Flask answers it with 500). */
  datatype Fault = Abort(status: int) | Raised(error: AuthError) | Uncaught

  /** Request headers by name. */
  type Headers = map<string, string>

  /** Decoded token claims. */
  type Payload = map<string, Json.Value>

  /** An entry of the key set's `keys` list. */
  datatype Jwk = Jwk(kty: string, kid: string, keyUse: string, n: string, e: string)

  /** The key handed to the decoder: the five fields copied out of a `Jwk`. */
  datatype RsaKey = RsaKey(kty: string, kid: string, keyUse: string, n: string, e: string)

  /** The arguments of the library's `jwt.decode` call. */
  datatype DecodeRequest = DecodeRequest(token: string, key: RsaKey, algorithms: seq<string>, audience: string, issuer: string)

  /** What `jwt.decode` does: returns the claims or raises one of three kinds of error. */
  datatype DecodeOutcome = Expired | ClaimsMismatch | OtherError | Decoded(payload: Payload)

  /** The token library. `unverifiedHeader` is what `jwt.get_unverified_header(token)`
      gives, reduced to its `kid`: `None` when reading the header raises, `Some(None)`
      when the header has no `kid`, `Some(Some(kid))` otherwise. `decode` is `jwt.decode`. */
  datatype Jose = Jose(unverifiedHeader: string -> Option<Option<string>>, decode: DecodeRequest -> DecodeOutcome)

  // ---------------------------------------------------------------- header

  /** `get_token_auth_header`: the second piece of `Authorization.split(" ")` when
      there are exactly two pieces and the first is `Bearer`; `abort(401)` otherwise. */
  function GetTokenAuthHeader(headers: Headers): (r: Result<string, Fault>)
    ensures r.Failure? ==> r.error == Abort(401)
    ensures r.Success? ==> AUTHORIZATION in headers && headers[AUTHORIZATION] == BEARER + " " + r.value
    ensures r.Success? ==> ' ' !in r.value
  {
    if AUTHORIZATION !in headers then Failure(Abort(401))
    else
      var parts := PyStr.Split(headers[AUTHORIZATION], ' ');
      if |parts| == 2 && parts[0] == BEARER then
        PyStr.TwoPieces(headers[AUTHORIZATION], ' ', parts[0], parts[1]);
        Success(parts[1])
      else Failure(Abort(401))
  }

  /** A header yields token `t` exactly when it reads `Bearer`, one space, then `t`
      with no further space. */
  lemma TokenAcceptance(headers: Headers, t: string)
    ensures GetTokenAuthHeader(headers) == Success(t)
        <==> AUTHORIZATION in headers && headers[AUTHORIZATION] == BEARER + " " + t && ' ' !in t
  {
    if AUTHORIZATION in headers && headers[AUTHORIZATION] == BEARER + " " + t && ' ' !in t {
      PyStr.TwoPieces(headers[AUTHORIZATION], ' ', BEARER, t);
    }
  }

  /** `"Bearer "` yields the empty token. */
  lemma EmptyTokenAccepted()
    ensures GetTokenAuthHeader(map[AUTHORIZATION := "Bearer "]) == Success("")
  {
    TokenAcceptance(map[AUTHORIZATION := "Bearer "], "");
    assert BEARER + " " + "" == "Bearer ";
  }

  /** A doubled space after the scheme is refused. */
  lemma DoubledSpaceRefused()
    ensures GetTokenAuthHeader(map[AUTHORIZATION := "Bearer  x"]) == Failure(Abort(401))
  {
  }

  /** The scheme is matched case-sensitively. */
  lemma LowerCaseSchemeRefused()
    ensures GetTokenAuthHeader(map[AUTHORIZATION := "bearer x"]) == Failure(Abort(401))
  {
  }

  /** A scheme without a token, or no header at all, is refused. */
  lemma BareSchemeRefused()
    ensures GetTokenAuthHeader(map[AUTHORIZATION := "Bearer"]) == Failure(Abort(401))
    ensures GetTokenAuthHeader(map[]) == Failure(Abort(401))
  {
  }

  // ---------------------------------------------------------------- permissions

  const MISSING_PERMISSIONS: AuthError := AuthError(InvalidClaims, "Permissions not included in JWT.", 400)
  const PERMISSION_NOT_FOUND: AuthError := AuthError(Unauthorized, "Permission not found.", 403)

  /** `check_permissions`: the payload must carry a `permissions` claim (else
      `invalid_claims`, 400) that contains `permission` (else `unauthorized`, 403).
      Python's `in` on a claim that is not a list, string or dictionary raises. */
  function CheckPermissions(permission: string, payload: Payload): (r: Result<bool, Fault>)
    ensures PERMISSIONS !in payload ==> r == Failure(Raised(MISSING_PERMISSIONS))
    ensures r.Success? ==> r.value && PERMISSIONS in payload
    ensures PERMISSIONS in payload && payload[PERMISSIONS].Arr? ==>
              (r.Success? <==> Json.Str(permission) in payload[PERMISSIONS].items)
    ensures r.Failure? && PERMISSIONS in payload && payload[PERMISSIONS].Arr? ==>
              r.error == Raised(PERMISSION_NOT_FOUND)
  {
    if PERMISSIONS !in payload then Failure(Raised(MISSING_PERMISSIONS))
    else
      match Json.StrIn(permission, payload[PERMISSIONS])
      case None => Failure(Uncaught)
      case Some(found) =>
        if !found then Failure(Raised(PERMISSION_NOT_FOUND)) else Success(true)
  }

  /** With the usual claim, a list of strings, the check passes exactly when the
      required permission is one of them, and fails with 403 otherwise. */
  lemma PermissionMembership(permission: string, payload: Payload, granted: seq<string>)
    requires PERMISSIONS in payload && payload[PERMISSIONS] == Json.StrList(granted)
    ensures CheckPermissions(permission, payload) ==
              if permission in granted then Success(true) else Failure(Raised(PERMISSION_NOT_FOUND))
  {
    Json.StrInStrList(permission, granted);
  }

  /** A payload without `permissions` fails the same way whatever permission is asked for. */
  lemma MissingClaimIgnoresPermission(p1: string, p2: string, payload: Payload)
    requires PERMISSIONS !in payload
    ensures CheckPermissions(p1, payload) == CheckPermissions(p2, payload)
    ensures CheckPermissions(p1, payload).error.error.statusCode == 400
  {
  }

  // ---------------------------------------------------------------- signing key

  function ToRsaKey(k: Jwk): RsaKey {
    RsaKey(k.kty, k.kid, k.keyUse, k.n, k.e)
  }

  /** `keys[i]` is the last key in the set carrying `kid`. */
  predicate LastWithKid(keys: seq<Jwk>, kid: string, i: int) {
    0 <= i < |keys| && keys[i].kid == kid && forall j :: i < j < |keys| ==> keys[j].kid != kid
  }

  /** A last key with `kid` stays the last one when a key with another `kid` is appended. */
  lemma LastWithKidExtends(keys: seq<Jwk>, kid: string, i: int)
    requires |keys| > 0 && keys[|keys| - 1].kid != kid
    requires LastWithKid(keys[..|keys| - 1], kid, i)
    ensures LastWithKid(keys, kid, i)
  {
    assert keys[..|keys| - 1][i] == keys[i];
    assert forall j :: i < j < |keys| - 1 ==> keys[..|keys| - 1][j] == keys[j];
  }

  /** There is only one last key with a given `kid`. */
  lemma LastWithKidUnique(keys: seq<Jwk>, kid: string, i: int, k: int)
    requires LastWithKid(keys, kid, i) && LastWithKid(keys, kid, k)
    ensures i == k
  {
  }

  /** The key a token with header `kid` is checked against: the fields of the LAST
      key in the set with that `kid`, since the source's loop keeps overwriting. */
  function SelectKey(keys: seq<Jwk>, kid: string): (r: Option<RsaKey>)
    ensures r.None? <==> forall i :: 0 <= i < |keys| ==> keys[i].kid != kid
    ensures r.Some? ==> exists i :: LastWithKid(keys, kid, i) && r.value == ToRsaKey(keys[i])
    decreases |keys|
  {
    if |keys| == 0 then None
    else
      var last := keys[|keys| - 1];
      if last.kid == kid then
        assert LastWithKid(keys, kid, |keys| - 1);
        Some(ToRsaKey(last))
      else
        var init := keys[..|keys| - 1];
        var r := SelectKey(init, kid);
        assert forall i :: 0 <= i < |init| ==> init[i] == keys[i];
        if r.None? then r
        else
          var i :| LastWithKid(init, kid, i) && r.value == ToRsaKey(init[i]);
          LastWithKidExtends(keys, kid, i);
          assert init[i] == keys[i];
          r
  }

  /** The source's `for key in jwks["keys"]` loop. */
  method FindSigningKey(keys: seq<Jwk>, kid: string) returns (rsaKey: Option<RsaKey>)
    ensures rsaKey == SelectKey(keys, kid)
  {
    rsaKey := None;
    for i := 0 to |keys|
      invariant rsaKey == SelectKey(keys[..i], kid)
    {
      assert keys[..i + 1][..i] == keys[..i];
      assert SelectKey(keys[..i + 1], kid)
          == if keys[i].kid == kid then Some(ToRsaKey(keys[i])) else SelectKey(keys[..i], kid);
      if keys[i].kid == kid {
        rsaKey := Some(ToRsaKey(keys[i]));
      }
    }
    assert keys[..|keys|] == keys;
  }

  // ---------------------------------------------------------------- decoding

  const TOKEN_EXPIRED: AuthError := AuthError(TokenExpired, "token is expired", 401)
  const INCORRECT_CLAIMS: AuthError := AuthError(InvalidClaims, "incorrect claims,please check the audience and issuer", 401)
  const UNPARSABLE_TOKEN: AuthError := AuthError(InvalidHeader, "Unable to parse authentication token.", 401)
  const NO_MATCHING_KEY: AuthError := AuthError(InvalidHeader, "Unable to find appropriate key", 401)

  /** The `except` clauses around `jwt.decode`. */
  function DecodeResult(o: DecodeOutcome): (r: Result<Payload, Fault>)
    ensures r.Success? <==> o.Decoded?
    ensures r.Success? ==> r.value == o.payload
    ensures r.Failure? ==> r.error.Raised? && r.error.error.statusCode == 401
    ensures o.Expired? ==> r.error.error.code == TokenExpired
    ensures o.ClaimsMismatch? ==> r.error.error.code == InvalidClaims
    ensures o.OtherError? ==> r.error.error.code == InvalidHeader
  {
    match o
    case Expired => Failure(Raised(TOKEN_EXPIRED))
    case ClaimsMismatch => Failure(Raised(INCORRECT_CLAIMS))
    case OtherError => Failure(Raised(UNPARSABLE_TOKEN))
    case Decoded(p) => Success(p)
  }

  /** The decode call made with the selected key and the configured expectations. */
  function DecodeRequestFor(token: string, key: RsaKey): DecodeRequest {
    DecodeRequest(token, key, ALGORITHMS, API_AUDIENCE, ISSUER)
  }

  /** `verify_decode_jwt`, with the key set already fetched. The header is read
      before the loop, but its `kid` only inside it, when the first key is compared:
      a header without `kid` raises only when the key set is not empty. */
  function VerifyDecodeJwt(token: string, jwks: seq<Jwk>, jose: Jose): (r: Result<Payload, Fault>)
    ensures jose.unverifiedHeader(token).None? ==> r == Failure(Uncaught)
    ensures jose.unverifiedHeader(token) == Some(None) ==>
              r == if |jwks| == 0 then Failure(Raised(NO_MATCHING_KEY)) else Failure(Uncaught)
    ensures jose.unverifiedHeader(token).Some? && |jwks| == 0 ==> r == Failure(Raised(NO_MATCHING_KEY))
    ensures forall kid :: jose.unverifiedHeader(token) == Some(Some(kid)) && SelectKey(jwks, kid).None? ==>
              r == Failure(Raised(NO_MATCHING_KEY))
    ensures r.Success? ==> exists key :: jose.decode(DecodeRequestFor(token, key)) == Decoded(r.value)
    ensures r.Failure? ==> r.error.Uncaught? || (r.error.Raised? && r.error.error.statusCode == 401)
  {
    match jose.unverifiedHeader(token)
    case None => Failure(Uncaught)
    case Some(None) => if |jwks| == 0 then Failure(Raised(NO_MATCHING_KEY)) else Failure(Uncaught)
    case Some(Some(kid)) =>
      match SelectKey(jwks, kid)
      case None => Failure(Raised(NO_MATCHING_KEY))
      case Some(key) => DecodeResult(jose.decode(DecodeRequestFor(token, key)))
  }

  /** When no key carries the token's `kid`, decoding is never attempted: the
      result is the same whatever the decoder would have said. */
  lemma NoKeyNoDecode(token: string, jwks: seq<Jwk>, jose: Jose, kid: string, otherDecode: DecodeRequest -> DecodeOutcome)
    requires jose.unverifiedHeader(token) == Some(Some(kid))
    requires forall i :: 0 <= i < |jwks| ==> jwks[i].kid != kid
    ensures VerifyDecodeJwt(token, jwks, jose) == Failure(Raised(NO_MATCHING_KEY))
    ensures VerifyDecodeJwt(token, jwks, jose.(decode := otherDecode)) == VerifyDecodeJwt(token, jwks, jose)
  {
  }

  /** The issuer the token must name is the tenant's URL. */
  lemma IssuerIsTenantUrl()
    ensures ISSUER == "https://ronak-dev.auth0.com/"
  {
  }

  /** The decoder is asked exactly once, with the last key matching the token's
      `kid`, the RS256 algorithm, the `drinks` audience and the tenant's issuer. */
  lemma DecodeUsesLastMatchingKey(token: string, jwks: seq<Jwk>, jose: Jose, i: nat)
    requires i < |jwks| && jose.unverifiedHeader(token) == Some(Some(jwks[i].kid))
    requires forall j :: i < j < |jwks| ==> jwks[j].kid != jwks[i].kid
    ensures VerifyDecodeJwt(token, jwks, jose)
         == DecodeResult(jose.decode(DecodeRequest(token, ToRsaKey(jwks[i]), ["RS256"], "drinks", "https://ronak-dev.auth0.com/")))
  {
    var kid := jwks[i].kid;
    var r := SelectKey(jwks, kid);
    assert LastWithKid(jwks, kid, i);
    var k :| LastWithKid(jwks, kid, k) && r.value == ToRsaKey(jwks[k]);
    LastWithKidUnique(jwks, kid, i, k);
    assert r == Some(ToRsaKey(jwks[i]));
    IssuerIsTenantUrl();
    assert DecodeRequestFor(token, ToRsaKey(jwks[i]))
        == DecodeRequest(token, ToRsaKey(jwks[i]), ["RS256"], "drinks", "https://ronak-dev.auth0.com/");
  }

  // ---------------------------------------------------------------- decorator

  /** The check run after decoding: skipped when no permission is required. */
  function PermissionGate(permission: string, payload: Payload): Result<bool, Fault> {
    if permission != "" then CheckPermissions(permission, payload) else Success(true)
  }

  /** `requires_auth(permission)(handler)`: extract the token, verify it, check the
      permission, and only then run the handler on the decoded payload. */
  function RequiresAuth<R>(permission: string, headers: Headers, jwks: seq<Jwk>, jose: Jose, handler: Payload -> R): (r: Result<R, Fault>)
    ensures GetTokenAuthHeader(headers).Failure? ==> r == Failure(Abort(401))
    ensures r.Success? ==>
              && GetTokenAuthHeader(headers).Success?
              && VerifyDecodeJwt(GetTokenAuthHeader(headers).value, jwks, jose).Success?
              && PermissionGate(permission, VerifyDecodeJwt(GetTokenAuthHeader(headers).value, jwks, jose).value).Success?
              && r.value == handler(VerifyDecodeJwt(GetTokenAuthHeader(headers).value, jwks, jose).value)
  {
    var token :- GetTokenAuthHeader(headers);
    var payload :- VerifyDecodeJwt(token, jwks, jose);
    var granted :- PermissionGate(permission, payload);
    Success(handler(payload))
  }

  /** The three steps run in order, and the first failure is the answer. */
  lemma PipelineOrder<R>(permission: string, headers: Headers, jwks: seq<Jwk>, jose: Jose, handler: Payload -> R)
    ensures var t := GetTokenAuthHeader(headers);
            t.Success? ==>
              var v := VerifyDecodeJwt(t.value, jwks, jose);
              && (v.Failure? ==> RequiresAuth(permission, headers, jwks, jose, handler) == Failure(v.error))
              && (v.Success? ==>
                    var g := PermissionGate(permission, v.value);
                    && (g.Failure? ==> RequiresAuth(permission, headers, jwks, jose, handler) == Failure(g.error))
                    && (g.Success? ==> RequiresAuth(permission, headers, jwks, jose, handler) == Success(handler(v.value))))
  {
  }

  /** A failing request never reaches the handler: any other handler gives the same answer. */
  lemma FailureSkipsHandler<R>(permission: string, headers: Headers, jwks: seq<Jwk>, jose: Jose, h1: Payload -> R, h2: Payload -> R)
    requires RequiresAuth(permission, headers, jwks, jose, h1).Failure?
    ensures RequiresAuth(permission, headers, jwks, jose, h2) == RequiresAuth(permission, headers, jwks, jose, h1)
  {
  }

  /** With the empty permission the claims are not inspected: a payload without
      `permissions` still reaches the handler. */
  lemma EmptyPermissionSkipsCheck<R>(headers: Headers, jwks: seq<Jwk>, jose: Jose, handler: Payload -> R)
    requires GetTokenAuthHeader(headers).Success?
    requires VerifyDecodeJwt(GetTokenAuthHeader(headers).value, jwks, jose).Success?
    ensures RequiresAuth("", headers, jwks, jose, handler)
         == Success(handler(VerifyDecodeJwt(GetTokenAuthHeader(headers).value, jwks, jose).value))
  {
  }

  /** The worked example: a token granting only `get:drinks-detail` is refused
      `post:drinks` with 403 and admitted to `get:drinks-detail` with its claims intact. */
  lemma GrantExample<R>(headers: Headers, jwks: seq<Jwk>, jose: Jose, handler: Payload -> R)
    requires GetTokenAuthHeader(headers).Success?
    requires VerifyDecodeJwt(GetTokenAuthHeader(headers).value, jwks, jose)
          == Success(map[PERMISSIONS := Json.StrList(["get:drinks-detail"])])
    ensures RequiresAuth("post:drinks", headers, jwks, jose, handler) == Failure(Raised(PERMISSION_NOT_FOUND))
    ensures RequiresAuth("get:drinks-detail", headers, jwks, jose, handler)
         == Success(handler(map[PERMISSIONS := Json.StrList(["get:drinks-detail"])]))
  {
    var payload := map[PERMISSIONS := Json.StrList(["get:drinks-detail"])];
    PermissionMembership("post:drinks", payload, ["get:drinks-detail"]);
    PermissionMembership("get:drinks-detail", payload, ["get:drinks-detail"]);
  }
}

=== FILE: coffee_shop.dfy ===
/** The coffee shop's drink routes: which permission guards each route, the
    handlers' effect on the table of drinks, and how errors become responses. */
module CoffeeShop {
  import opened Wrappers
  import Json
  import Auth

  /** What the `recipe` column holds: the text `json.dumps` made of a JSON value
      (written by `POST /drinks`), or text stored as it came (written by
      `PATCH /drinks/<id>`, which does not serialize). */
  datatype Recipe = Dumped(value: Json.Value) | Text(text: string)

  /** A row of the `drink` table: `title` is a nullable text column under a
      uniqueness constraint, `recipe` a text column that may not be NULL. */
  datatype Drink = Drink(id: int, title: Option<string>, recipe: Recipe)

  /** The `drink` table by primary key. */
  type Store = map<int, Drink>

  /** The table's invariant: every row sits under its own id, and no two rows
      share a non-NULL title. */
  predicate ValidStore(store: Store) {
    && (forall k :: k in store ==> store[k].id == k)
    && (forall k, l :: k in store && l in store && k != l && store[k].title.Some? ==> store[k].title != store[l].title)
  }

  /** `json.loads` on text the application did not write itself: the decoded
      value, or `None` when it raises. */
  type Loads = string -> Option<Json.Value>

  datatype Route =
    | ListDrinks          // GET /drinks
    | DrinksDetail        // GET /drinks-detail
    | CreateDrink         // POST /drinks
    | PatchDrink(id: int) // PATCH /drinks/<id>
    | DeleteDrink(id: int) // DELETE /drinks/<drink_id>

  /** A request: its headers and its body, `None` when the body is not valid JSON. */
  datatype Request = Request(headers: Auth.Headers, body: Option<Json.Value>)

  datatype Guard = Public | Protected(permission: string)

  /** A drink as a response shows it: `long()` keeps the whole recipe, `short()`
      only its `color` and `parts`. */
  datatype Rendered = Rendered(id: int, title: Option<string>, recipe: Json.Value)

  /** What a response carries: the drink listing by id, the patched drinks, the
      created drink, the deleted id, a registered error handler's message, or
      Flask's own error page. */
  datatype Body =
    | Drinks(listing: map<int, Rendered>)
    | Patched(drinks: seq<Rendered>)
    | Created(drink: Rendered)
    | Deleted(id: int)
    | ErrorMessage(message: string)
    | DefaultErrorPage

  /** A response and the table as it stands afterwards. */
  datatype Response = Response(status: int, body: Body, store: Store)

  /** The `requires_auth` decoration of each route. */
  function GuardOf(route: Route): Guard {
    match route
    case ListDrinks => Public
    case DrinksDetail => Protected("get:drinks-detail")
    case CreateDrink => Protected("post:drinks")
    case PatchDrink(_) => Protected("patch:drinks")
    case DeleteDrink(_) => Protected("delete:drinks")
  }

  /** The HTTP method of a route, lower-cased. */
  function Verb(route: Route): string {
    match route
    case ListDrinks => "get"
    case DrinksDetail => "get"
    case CreateDrink => "post"
    case PatchDrink(_) => "patch"
    case DeleteDrink(_) => "delete"
  }

  /** Which of the five endpoints a route is. */
  function Endpoint(route: Route): nat {
    match route
    case ListDrinks => 0
    case DrinksDetail => 1
    case CreateDrink => 2
    case PatchDrink(_) => 3
    case DeleteDrink(_) => 4
  }

  /** Every protected route's permission is named `<method>:<resource>` after its
      own HTTP method, and no two endpoints share a permission, so holding one
      permission opens exactly one endpoint. Only `GET /drinks` is public. */
  lemma PermissionTable(r1: Route, r2: Route)
    ensures GuardOf(r1).Public? <==> r1.ListDrinks?
    ensures GuardOf(r1).Protected? ==>
              var p := GuardOf(r1).permission;
              |Verb(r1)| + 1 < |p| && p[..|Verb(r1)| + 1] == Verb(r1) + ":"
    ensures GuardOf(r1).Protected? && GuardOf(r1) == GuardOf(r2) ==> Endpoint(r1) == Endpoint(r2)
  {
  }

  // ---------------------------------------------------------------- columns

  /** Some row other than `except` already has the non-NULL `title`. */
  predicate TitleTaken(store: Store, except: int, title: Option<string>) {
    title.Some? && exists k :: k in store && k != except && store[k].title == title
  }

  // ---------------------------------------------------------------- handlers

  /** `PATCH /drinks/<id>`: 404 for an unknown id before the body is read; then a
      body that is not a JSON object raises; the title and the recipe are each
      replaced only by a truthy new value, the recipe without serializing it.
      The commit fails, and nothing is stored, when a new value is a list or a
      dictionary or the title is another row's. */
  function UpdateDrink(store: Store, id: int, body: Option<Json.Value>): (r: Result<Drink, Auth.Fault>)
    ensures id !in store ==> r == Failure(Auth.Abort(404))
    ensures id in store && (body.None? || !body.value.Obj?) ==> r == Failure(Auth.Uncaught)
    ensures r.Failure? ==> r.error == Auth.Abort(404) || r.error == Auth.Uncaught
    ensures id in store && body.Some? && body.value.Obj? ==>
              var fields := body.value.fields;
              var newTitle := "title" in fields && Json.Truthy(fields["title"]);
              var newRecipe := "recipe" in fields && Json.Truthy(fields["recipe"]);
              var title := if newTitle then Json.SqlText(fields["title"]) else Some(store[id].title);
              (r.Success? <==> title.Some? && !(newRecipe && (fields["recipe"].Arr? || fields["recipe"].Obj?))
                               && !TitleTaken(store, id, title.value))
              && (r.Success? ==>
                    && r.value.id == id
                    && r.value.title == title.value
                    && r.value.recipe == (if newRecipe then Text(Json.SqlText(fields["recipe"]).value.value) else store[id].recipe))
  {
    if id !in store then Failure(Auth.Abort(404))
    else if body.None? then Failure(Auth.Uncaught)
    else
      match (Json.Get(body.value, "title"), Json.Get(body.value, "recipe"))
      case (Some(title), Some(recipe)) =>
        var drink := store[id];
        var t := if Json.Truthy(title) then Json.SqlText(title) else Some(drink.title);
        var rc := if !Json.Truthy(recipe) then Some(drink.recipe)
                  else match Json.SqlText(recipe) case Some(Some(text)) => Some(Text(text)) case _ => None;
        if t.None? || rc.None? || TitleTaken(store, id, t.value) then Failure(Auth.Uncaught)
        else Success(Drink(id, t.value, rc.value))
      case _ => Failure(Auth.Uncaught)
  }

  /** A body that supplies neither field, or only falsy ones, changes nothing. */
  lemma EmptyPatchKeepsDrink(store: Store, id: int)
    requires id in store && ValidStore(store)
    ensures UpdateDrink(store, id, Some(Json.Obj(map[]))) == Success(store[id])
    ensures UpdateDrink(store, id, Some(Json.Obj(map["title" := Json.Str(""), "recipe" := Json.Arr([])]))) == Success(store[id])
  {
  }

  /** Patching twice with the same body has the effect of patching once. */
  lemma PatchIdempotent(store: Store, id: int, body: Option<Json.Value>)
    requires UpdateDrink(store, id, body).Success?
    ensures var d := UpdateDrink(store, id, body).value;
            UpdateDrink(store[id := d], id, body) == Success(d)
  {
  }

  /** A non-empty list as the new recipe, the form the front end sends, cannot be
      stored by `PATCH`: the request fails and the row keeps its recipe. */
  lemma PatchListRecipeFails(store: Store, id: int, items: seq<Json.Value>)
    requires id in store && |items| > 0
    ensures UpdateDrink(store, id, Some(Json.Obj(map["recipe" := Json.Arr(items)]))) == Failure(Auth.Uncaught)
  {
  }

  /** `POST /drinks`: a new row under the id the database assigns, with the
      body's title bound to the text column and the recipe serialized. A title
      that is a list or a dictionary, or that another row already has, makes
      the commit fail. */
  function InsertDrink(store: Store, nextId: int, body: Option<Json.Value>): (r: Result<Drink, Auth.Fault>)
    requires nextId !in store
    ensures body.None? || !body.value.Obj? ==> r == Failure(Auth.Uncaught)
    ensures r.Failure? ==> r.error == Auth.Uncaught
    ensures body.Some? && body.value.Obj? ==>
              var title := Json.SqlText(Json.Get(body.value, "title").value);
              (r.Success? <==> title.Some? && !TitleTaken(store, nextId, title.value))
              && (r.Success? ==> r.value == Drink(nextId, title.value, Dumped(Json.Get(body.value, "recipe").value)))
  {
    if body.None? then Failure(Auth.Uncaught)
    else
      match (Json.Get(body.value, "title"), Json.Get(body.value, "recipe"))
      case (Some(title), Some(recipe)) =>
        (match Json.SqlText(title)
         case None => Failure(Auth.Uncaught)
         case Some(t) => if TitleTaken(store, nextId, t) then Failure(Auth.Uncaught) else Success(Drink(nextId, t, Dumped(recipe))))
      case _ => Failure(Auth.Uncaught)
  }

  /** `DELETE /drinks/<drink_id>` as written: the bulk delete is never committed,
      so the session's teardown rolls it back; the answer is 200 with the
      requested id and the table is as it was. */
  function RemoveDrinkAsWritten(store: Store, id: int): (resp: Response)
    ensures resp.status == 200 && resp.body == Deleted(id)
    ensures resp.store == store
  {
    Response(200, Deleted(id), store)
  }

  /** The drink `DELETE` reported as deleted is still listed afterwards. */
  lemma DeleteAsWrittenKeepsRow(store: Store, id: int)
    requires id in store
    ensures RemoveDrinkAsWritten(store, id).body == Deleted(id)
    ensures id in RemoveDrinkAsWritten(store, id).store
  {
  }

  /** `DELETE /drinks/<drink_id>` with the deletion committed, as `Drink.delete`
      does: the answer is 200 with the requested id whether or not a row
      existed, that row is gone, and every other row is untouched. */
  function RemoveDrink(store: Store, id: int): (resp: Response)
    ensures resp.status == 200 && resp.body == Deleted(id)
    ensures id !in resp.store
    ensures forall k :: k in store && k != id ==> k in resp.store && resp.store[k] == store[k]
    ensures resp.store.Keys <= store.Keys
  {
    Response(200, Deleted(id), store - {id})
  }

  /** Deleting an id twice leaves the table as deleting it once, and the answer is the same. */
  lemma RemoveIdempotent(store: Store, id: int)
    ensures RemoveDrink(RemoveDrink(store, id).store, id) == RemoveDrink(store, id)
  {
    assert (store - {id}) - {id} == store - {id};
  }

  // ---------------------------------------------------------------- rendering

  /** `json.loads(self.recipe)`. */
  function DecodeRecipe(recipe: Recipe, loads: Loads): Option<Json.Value> {
    match recipe
    case Dumped(v) => Some(v)
    case Text(t) => loads(t)
  }

  /** `Drink.long()`: the whole decoded recipe; it raises when the stored text
      is not JSON. */
  function Long(d: Drink, loads: Loads): (r: Option<Rendered>)
    ensures r.Some? <==> DecodeRecipe(d.recipe, loads).Some?
    ensures r.Some? ==> r.value == Rendered(d.id, d.title, DecodeRecipe(d.recipe, loads).value)
    ensures d.recipe.Dumped? ==> r == Some(Rendered(d.id, d.title, d.recipe.value))
  {
    match DecodeRecipe(d.recipe, loads)
    case None => None
    case Some(v) => Some(Rendered(d.id, d.title, v))
  }

  /** `Drink.short()`: the recipe's `color` and `parts`, `None` where one is
      missing; it raises unless the stored text decodes to a dictionary. */
  function Short(d: Drink, loads: Loads): (r: Option<Rendered>)
    ensures r.Some? <==> DecodeRecipe(d.recipe, loads).Some? && DecodeRecipe(d.recipe, loads).value.Obj?
    ensures r.Some? ==> r.value.id == d.id && r.value.title == d.title
    ensures r.Some? ==>
              var full := DecodeRecipe(d.recipe, loads).value.fields;
              && r.value.recipe.Obj? && r.value.recipe.fields.Keys == {"color", "parts"}
              && (forall key :: key in {"color", "parts"} ==>
                    r.value.recipe.fields[key] == if key in full then full[key] else Json.Null)
  {
    match DecodeRecipe(d.recipe, loads)
    case Some(Obj(m)) =>
      var color := Json.Get(Json.Obj(m), "color").value;
      var parts := Json.Get(Json.Obj(m), "parts").value;
      Some(Rendered(d.id, d.title, Json.Obj(map["color" := color, "parts" := parts])))
    case _ => None
  }

  /** The drink in the requested form. */
  function Render(d: Drink, detailed: bool, loads: Loads): Option<Rendered> {
    if detailed then Long(d, loads) else Short(d, loads)
  }

  /** Every row in the requested form, or `None` when any one of them raises. */
  function RenderAll(store: Store, detailed: bool, loads: Loads): (r: Option<map<int, Rendered>>)
    ensures r.Some? <==> forall k :: k in store ==> Render(store[k], detailed, loads).Some?
    ensures r.Some? ==> r.value.Keys == store.Keys
    ensures r.Some? ==> forall k :: k in store ==> Some(r.value[k]) == Render(store[k], detailed, loads)
  {
    if forall k :: k in store ==> Render(store[k], detailed, loads).Some? then
      Some(map k | k in store :: Render(store[k], detailed, loads).value)
    else None
  }

  /** A drink created by `POST` always reads back in the long form with the
      recipe it was given. */
  lemma CreatedDrinkReadsBack(store: Store, nextId: int, body: Json.Value, loads: Loads)
    requires nextId !in store
    requires InsertDrink(store, nextId, Some(body)).Success?
    ensures var d := InsertDrink(store, nextId, Some(body)).value;
            Long(d, loads) == Some(Rendered(nextId, d.title, Json.Get(body, "recipe").value))
  {
  }

  /** A drink created with a recipe that is not a dictionary, such as the list
      the front end sends, makes every later `GET /drinks` fail. */
  lemma ListRecipeBreaksListing(store: Store, nextId: int, body: Json.Value, loads: Loads)
    requires nextId !in store
    requires InsertDrink(store, nextId, Some(body)).Success?
    requires !Json.Get(body, "recipe").value.Obj?
    ensures var d := InsertDrink(store, nextId, Some(body)).value;
            RenderAll(store[nextId := d], false, loads).None?
  {
    var d := InsertDrink(store, nextId, Some(body)).value;
    assert nextId in store[nextId := d] && store[nextId := d][nextId] == d;
  }

  // ---------------------------------------------------------------- errors

  /** The registered error handlers: every `AuthError` is answered 401 whatever
      status it carried; 404 and 422 have their own messages; other aborts and
      uncaught exceptions get Flask's default page. The table is left as it was. */
  function FaultResponse(f: Auth.Fault, store: Store): (resp: Response)
    ensures resp.store == store
    ensures f.Raised? ==> resp.status == 401 && resp.body == ErrorMessage("Not Authorized")
    ensures f.Abort? ==> resp.status == f.status
    ensures f.Uncaught? ==> resp.status == 500
  {
    match f
    case Raised(_) => Response(401, ErrorMessage("Not Authorized"), store)
    case Abort(s) =>
      if s == 404 then Response(404, ErrorMessage("resource not found"), store)
      else if s == 422 then Response(422, ErrorMessage("unprocessable"), store)
      else Response(s, DefaultErrorPage, store)
    case Uncaught => Response(500, DefaultErrorPage, store)
  }

  /** The body of a route's handler, run once authorization has passed. A
      rendering that raises after a commit leaves the committed table behind. */
  function Handle(route: Route, body: Option<Json.Value>, store: Store, nextId: int, loads: Loads): (resp: Response)
    requires nextId !in store
    ensures (route.ListDrinks? || route.DrinksDetail?) ==>
              resp.store == store
              && (resp.status == 200 <==> RenderAll(store, route.DrinksDetail?, loads).Some?)
              && (resp.status != 200 ==> resp.status == 500)
              && (resp.status == 200 ==> resp.body == Drinks(RenderAll(store, route.DrinksDetail?, loads).value))
    ensures route.CreateDrink? ==>
              match InsertDrink(store, nextId, body)
              case Failure(_) => resp.status == 500 && resp.store == store
              case Success(d) => resp == Response(200, Created(Long(d, loads).value), store[nextId := d])
    ensures route.PatchDrink? ==>
              match UpdateDrink(store, route.id, body)
              case Failure(f) => resp == FaultResponse(f, store)
              case Success(d) => resp.store == store[route.id := d]
                                 && (resp.status == 200 <==> Long(d, loads).Some?)
                                 && (resp.status == 200 ==> resp.body == Patched([Long(d, loads).value]))
    ensures route.DeleteDrink? ==> resp == RemoveDrink(store, route.id)
  {
    match route
    case ListDrinks =>
      (match RenderAll(store, false, loads)
       case None => Response(500, DefaultErrorPage, store)
       case Some(m) => Response(200, Drinks(m), store))
    case DrinksDetail =>
      (match RenderAll(store, true, loads)
       case None => Response(500, DefaultErrorPage, store)
       case Some(m) => Response(200, Drinks(m), store))
    case CreateDrink =>
      (match InsertDrink(store, nextId, body)
       case Failure(f) => FaultResponse(f, store)
       case Success(d) => Response(200, Created(Long(d, loads).value), store[nextId := d]))
    case PatchDrink(id) =>
      (match UpdateDrink(store, id, body)
       case Failure(f) => FaultResponse(f, store)
       case Success(d) =>
         match Long(d, loads)
         case None => Response(500, DefaultErrorPage, store[id := d])
         case Some(v) => Response(200, Patched([v]), store[id := d]))
    case DeleteDrink(id) => RemoveDrink(store, id)
  }

  /** A request to the API: public routes run directly, protected ones through
      `requires_auth` with their permission. */
  function Serve(route: Route, req: Request, jwks: seq<Auth.Jwk>, jose: Auth.Jose, store: Store, nextId: int, loads: Loads): (resp: Response)
    requires nextId !in store
    ensures route.ListDrinks? ==>
              resp.store == store
              && (resp.status == 200 <==> forall k :: k in store ==> Short(store[k], loads).Some?)
              && (resp.status != 200 ==> resp.status == 500)
    ensures route.DeleteDrink? && resp.status == 200 ==>
              resp.body == Deleted(route.id) && resp.store == store - {route.id}
    ensures resp.status != 200 ==> resp.store == store || (route.PatchDrink? && resp.status == 500)
  {
    match GuardOf(route)
    case Public => Handle(route, req.body, store, nextId, loads)
    case Protected(p) =>
      match Auth.RequiresAuth(p, req.headers, jwks, jose, (payload: Auth.Payload) => Handle(route, req.body, store, nextId, loads))
      case Failure(f) => FaultResponse(f, store)
      case Success(resp) => resp
  }

  /** Every request keeps the table's invariant: ids stay under their own key
      and titles stay unique. */
  lemma ServeKeepsStoreValid(route: Route, req: Request, jwks: seq<Auth.Jwk>, jose: Auth.Jose, store: Store, nextId: int, loads: Loads)
    requires nextId !in store && ValidStore(store)
    ensures ValidStore(Serve(route, req, jwks, jose, store, nextId, loads).store)
  {
  }

  /** `GET /drinks` needs no token: it answers the same whatever the headers and
      token library say, never with an authorization error, and 200 exactly when
      every stored recipe is a JSON dictionary. */
  lemma ListingNeedsNoToken(req1: Request, req2: Request, jwks: seq<Auth.Jwk>, jose1: Auth.Jose, jose2: Auth.Jose, store: Store, nextId: int, loads: Loads)
    requires nextId !in store
    ensures Serve(ListDrinks, req1, jwks, jose1, store, nextId, loads) == Serve(ListDrinks, req2, [], jose2, store, nextId, loads)
    ensures Serve(ListDrinks, req1, jwks, jose1, store, nextId, loads).status in {200, 500}
    ensures Serve(ListDrinks, req1, jwks, jose1, store, nextId, loads).status == 200 <==>
              forall k :: k in store ==> DecodeRecipe(store[k].recipe, loads).Some? && DecodeRecipe(store[k].recipe, loads).value.Obj?
  {
  }

  /** On a protected route every `AuthError`, whether raised with 400, 401 or 403,
      is answered 401, and the table is untouched. */
  lemma AuthErrorsAnswer401(route: Route, req: Request, jwks: seq<Auth.Jwk>, jose: Auth.Jose, store: Store, nextId: int, loads: Loads, e: Auth.AuthError)
    requires nextId !in store
    requires GuardOf(route).Protected?
    requires Auth.RequiresAuth(GuardOf(route).permission, req.headers, jwks, jose,
                               (payload: Auth.Payload) => Handle(route, req.body, store, nextId, loads)) == Failure(Auth.Raised(e))
    ensures Serve(route, req, jwks, jose, store, nextId, loads) == Response(401, ErrorMessage("Not Authorized"), store)
  {
  }

  /** A protected route without a usable bearer header is refused with 401 before
      anything else happens. */
  lemma MissingTokenRefused(route: Route, req: Request, jwks: seq<Auth.Jwk>, jose: Auth.Jose, store: Store, nextId: int, loads: Loads)
    requires nextId !in store
    requires !route.ListDrinks?
    requires Auth.GetTokenAuthHeader(req.headers).Failure?
    ensures Serve(route, req, jwks, jose, store, nextId, loads) == Response(401, DefaultErrorPage, store)
  {
  }

  /** An authorized PATCH of an unknown id is answered 404, whatever the body. */
  lemma PatchUnknownIdNotFound(id: int, req: Request, jwks: seq<Auth.Jwk>, jose: Auth.Jose, store: Store, nextId: int, loads: Loads)
    requires nextId !in store
    requires id !in store
    requires Auth.RequiresAuth("patch:drinks", req.headers, jwks, jose,
                               (payload: Auth.Payload) => Handle(PatchDrink(id), req.body, store, nextId, loads)).Success?
    ensures Serve(PatchDrink(id), req, jwks, jose, store, nextId, loads) == Response(404, ErrorMessage("resource not found"), store)
  {
  }
}

=== FILE: flask_recap.dfy ===
/** The greeting API: a language-to-greeting map with lookup and insert, and a
    route that echoes the bearer token of the `Authorization` header. */
module FlaskRecap {
  import opened Wrappers
  import Http
  import PyStr
  import Auth

  type Greetings = map<string, string>

  /** The module-level `greetings` dictionary the server starts with. */
  const INITIAL_GREETINGS: Greetings := map[
    "en" := "hello",
    "es" := "Hola",
    "ar" := "مرحبا",
    "ru" := "Привет",
    "fi" := "Hei",
    "he" := "שלום",
    "ja" := "こんにちは"
  ]

  /** `GET /greeting/<lang>`: the greeting for `lang`, or `abort(404)`. */
  function GreetingOne(greetings: Greetings, lang: string): (r: Result<string, Http.Fault>)
    ensures r.Success? <==> lang in greetings
    ensures r.Success? ==> r.value == greetings[lang]
    ensures r.Failure? ==> r.error == Http.Abort(404)
  {
    if lang !in greetings then Failure(Http.Abort(404)) else Success(greetings[lang])
  }

  /** `POST /greeting` with a JSON object body: `abort(422)` unless both `lang` and
      `greeting` are present, otherwise the map with `lang` bound to `greeting`. */
  function GreetingAdd(greetings: Greetings, info: map<string, string>): (r: Result<Greetings, Http.Fault>)
    ensures r.Failure? <==> "lang" !in info || "greeting" !in info
    ensures r.Failure? ==> r.error == Http.Abort(422)
    ensures r.Success? ==> r.value.Keys == greetings.Keys + {info["lang"]}
    ensures r.Success? ==> r.value[info["lang"]] == info["greeting"]
    ensures r.Success? ==> forall l :: l in greetings && l != info["lang"] ==> r.value[l] == greetings[l]
  {
    if "lang" !in info || "greeting" !in info then Failure(Http.Abort(422))
    else Success(greetings[info["lang"] := info["greeting"]])
  }

  /** The server starts with seven languages, English answering `hello`, and any
      other language is not found until it is added. */
  lemma InitialGreetings(lang: string)
    ensures |INITIAL_GREETINGS| == 7
    ensures GreetingOne(INITIAL_GREETINGS, "en") == Success("hello")
    ensures lang !in {"en", "es", "ar", "ru", "fi", "he", "ja"} ==> GreetingOne(INITIAL_GREETINGS, lang) == Failure(Http.Abort(404))
  {
  }

  /** After a successful add, looking the language up returns the new greeting,
      and every other language answers as before. */
  lemma AddThenLookup(greetings: Greetings, info: map<string, string>, other: string)
    requires GreetingAdd(greetings, info).Success?
    ensures GreetingOne(GreetingAdd(greetings, info).value, info["lang"]) == Success(info["greeting"])
    ensures other != info["lang"] ==> GreetingOne(GreetingAdd(greetings, info).value, other) == GreetingOne(greetings, other)
  {
  }

  /** Adding the same pair twice leaves the map as adding it once. */
  lemma AddIdempotent(greetings: Greetings, info: map<string, string>)
    requires GreetingAdd(greetings, info).Success?
    ensures GreetingAdd(GreetingAdd(greetings, info).value, info) == GreetingAdd(greetings, info)
  {
    var once := greetings[info["lang"] := info["greeting"]];
    assert once[info["lang"] := info["greeting"]] == once;
  }

  /** `GET /headers`: the same bearer rule as the coffee shop, written with three aborts. */
  function BearerToken(headers: map<string, string>): (r: Result<string, Http.Fault>)
    ensures r.Failure? ==> r.error == Http.Abort(401)
  {
    if "Authorization" !in headers then Failure(Http.Abort(401))
    else
      var parts := PyStr.Split(headers["Authorization"], ' ');
      if |parts| != 2 then Failure(Http.Abort(401))
      else if parts[0] != "Bearer" then Failure(Http.Abort(401))
      else Success(parts[1])
  }

  /** This route accepts exactly the headers the coffee shop's parser accepts and
      returns the same token; both refuse the others with 401. */
  lemma SameRuleAsCoffeeShop(headers: map<string, string>)
    ensures BearerToken(headers).Success? <==> Auth.GetTokenAuthHeader(headers).Success?
    ensures BearerToken(headers).Success? ==> BearerToken(headers).value == Auth.GetTokenAuthHeader(headers).value
    ensures BearerToken(headers).Failure? ==> Auth.GetTokenAuthHeader(headers).error == Auth.Abort(401)
  {
  }

  /** The echoed token is what follows `Bearer ` and holds no space. */
  lemma BearerTokenShape(headers: map<string, string>, t: string)
    ensures BearerToken(headers) == Success(t)
        <==> "Authorization" in headers && headers["Authorization"] == "Bearer " + t && ' ' !in t
  {
    SameRuleAsCoffeeShop(headers);
    Auth.TokenAcceptance(headers, t);
  }
}

=== FILE: fyyur_forms.dfy ===
/** Fyyur's form submissions: the seeking flags and descriptions derived from the
    submitted fields, and the columns the create and edit handlers write. */
module FyyurForms {
  import opened Wrappers
  import Json
  import Http
  import opened Seqs

  /** The submitted form: (field, value) pairs in submission order, as a multi-dict. */
  type Form = seq<(string, string)>

  predicate Has(form: Form, field: string) {
    exists i :: 0 <= i < |form| && form[i].0 == field
  }

  /** `request.form.get(field)`: the first value submitted for the field. */
  function Get(form: Form, field: string): (r: Option<string>)
    ensures r.Some? <==> Has(form, field)
    ensures r.Some? ==> exists i :: 0 <= i < |form| && form[i] == (field, r.value)
                                    && forall j :: 0 <= j < i ==> form[j].0 != field
    decreases |form|
  {
    if |form| == 0 then None
    else if form[0].0 == field then Some(form[0].1)
    else
      var r := Get(form[1..], field);
      assert forall i :: 0 < i < |form| ==> form[1..][i - 1] == form[i];
      r
  }

  /** The pair was submitted under `field`. */
  function FieldIs(field: string): ((string, string)) -> bool {
    (entry: (string, string)) => entry.0 == field
  }

  /** The values of a list of (field, value) pairs, in order. */
  function Values(entries: Form): (r: seq<string>)
    ensures |r| == |entries|
    ensures forall i :: 0 <= i < |entries| ==> r[i] == entries[i].1
  {
    if |entries| == 0 then [] else [entries[0].1] + Values(entries[1..])
  }

  /** `request.form.getlist(field)`: every value submitted for the field, in
      submission order, and nothing else. */
  function GetList(form: Form, field: string): (r: seq<string>)
    ensures r == Values(Filter(form, FieldIs(field)))
    ensures |r| > 0 <==> Has(form, field)
    decreases |form|
  {
    if |form| == 0 then []
    else
      var rest := GetList(form[1..], field);
      assert Has(form[1..], field) ==> Has(form, field) by {
        if Has(form[1..], field) {
          var i :| 0 <= i < |form[1..]| && form[1..][i].0 == field;
          assert form[i + 1].0 == field;
        }
      }
      if form[0].0 == field then
        var kept := Filter(form[1..], FieldIs(field));
        assert ([form[0]] + kept)[1..] == kept;
        [form[0].1] + rest
      else rest
  }

  /** A form field as a column value: the string, or `None` when the field is missing. */
  function FieldValue(form: Form, field: string): (v: Json.Value)
    ensures v == Json.Null <==> !Has(form, field)
    ensures Has(form, field) ==> v == Json.Str(Get(form, field).value)
  {
    match Get(form, field)
    case None => Json.Null
    case Some(s) => Json.Str(s)
  }

  /** `seeking_talent` / `seeking_venue`: false unless the field is present, and
      then true exactly when its value is `y` (the checkbox's value). */
  function SeekingFlag(form: Form, field: string): (b: bool)
    ensures b <==> Has(form, field) && Get(form, field) == Some("y")
  {
    var seeking := false;
    if Has(form, field) then Get(form, field) == Some("y") else seeking
  }

  /** `seeking_description`: the submitted text, `""` when the field is missing. */
  function SeekingDescription(form: Form): (s: string)
    ensures !Has(form, "seeking_description") ==> s == ""
    ensures Has(form, "seeking_description") ==> Get(form, "seeking_description") == Some(s)
  {
    var description := "";
    if Has(form, "seeking_description") then Get(form, "seeking_description").value else description
  }

  /** The columns of a venue that the form handlers write. */
  datatype VenueFields = VenueFields(
    name: Json.Value, genres: Json.Value, address: Json.Value, city: Json.Value, state: Json.Value,
    phone: Json.Value, website: Json.Value, facebookLink: Json.Value, imageLink: Json.Value,
    seekingTalent: Json.Value, seekingDescription: Json.Value)

  /** The columns of an artist that the form handlers write. */
  datatype ArtistFields = ArtistFields(
    name: Json.Value, genres: Json.Value, city: Json.Value, state: Json.Value,
    phone: Json.Value, website: Json.Value, facebookLink: Json.Value, imageLink: Json.Value,
    seekingVenue: Json.Value, seekingDescription: Json.Value)

  /** `POST /venues/create`: the row the handler inserts. */
  function NewVenue(form: Form): (v: VenueFields)
    ensures v.seekingTalent == Json.Bool(Has(form, "seeking_talent") && Get(form, "seeking_talent") == Some("y"))
    ensures !Has(form, "seeking_description") ==> v.seekingDescription == Json.Str("")
    ensures Has(form, "seeking_description") ==> v.seekingDescription == Json.Str(Get(form, "seeking_description").value)
    ensures v.genres == Json.StrList(GetList(form, "genres"))
    ensures v.name == Json.Null <==> !Has(form, "name")
    ensures Has(form, "name") ==> v.name == Json.Str(Get(form, "name").value)
  {
    VenueFields(
      FieldValue(form, "name"), Json.StrList(GetList(form, "genres")), FieldValue(form, "address"),
      FieldValue(form, "city"), FieldValue(form, "state"), FieldValue(form, "phone"),
      FieldValue(form, "website"), FieldValue(form, "facebook_link"), FieldValue(form, "image_link"),
      Json.Bool(SeekingFlag(form, "seeking_talent")), Json.Str(SeekingDescription(form)))
  }

  /** `POST /artists/create`: the row the handler inserts. */
  function NewArtist(form: Form): (a: ArtistFields)
    ensures a.seekingVenue == Json.Bool(Has(form, "seeking_venue") && Get(form, "seeking_venue") == Some("y"))
    ensures !Has(form, "seeking_description") ==> a.seekingDescription == Json.Str("")
    ensures Has(form, "seeking_description") ==> a.seekingDescription == Json.Str(Get(form, "seeking_description").value)
    ensures a.genres == Json.StrList(GetList(form, "genres"))
    ensures a.name == Json.Null <==> !Has(form, "name")
    ensures Has(form, "name") ==> a.name == Json.Str(Get(form, "name").value)
  {
    ArtistFields(
      FieldValue(form, "name"), Json.StrList(GetList(form, "genres")),
      FieldValue(form, "city"), FieldValue(form, "state"), FieldValue(form, "phone"),
      FieldValue(form, "website"), FieldValue(form, "facebook_link"), FieldValue(form, "image_link"),
      Json.Bool(SeekingFlag(form, "seeking_venue")), Json.Str(SeekingDescription(form)))
  }

  /** What a create submission leaves behind: the table afterwards, and either the
      flashed message or the exception that escaped while composing it. */
  datatype Created<T> = Created(table: map<int, T>, outcome: Result<string, Http.Fault>)

  /** The shape shared by `POST /venues/create` and `POST /artists/create`: the row
      is inserted under the id the database assigns unless the insert raises a
      database error, which is caught; either way a message built by concatenating
      the submitted `name` is flashed, and without a `name` that concatenation
      raises a `TypeError`, which nothing catches. */
  function CreateSubmission<T>(table: map<int, T>, nextId: int, row: T, noun: string, form: Form, dbError: bool): (c: Created<T>)
    requires nextId !in table
    ensures c.table.Keys == if dbError then table.Keys else table.Keys + {nextId}
    ensures forall k :: k in table ==> c.table[k] == table[k]
    ensures !dbError ==> c.table[nextId] == row
    ensures c.outcome.Failure? <==> !Has(form, "name")
    ensures c.outcome.Failure? ==> c.outcome.error == Http.Uncaught
    ensures c.outcome.Success? ==>
              c.outcome.value == if dbError then "An error occurred. " + noun + " " + Get(form, "name").value + " could not be listed."
                                 else noun + " " + Get(form, "name").value + " was successfully listed!"
  {
    var table := if dbError then table else table[nextId := row];
    match Get(form, "name")
    case None => Created(table, Failure(Http.Uncaught))
    case Some(name) =>
      if dbError then Created(table, Success("An error occurred. " + noun + " " + name + " could not be listed."))
      else Created(table, Success(noun + " " + name + " was successfully listed!"))
  }

  /** `POST /venues/create`. */
  function CreateVenue(venues: map<int, VenueFields>, nextId: int, form: Form, dbError: bool): (c: Created<VenueFields>)
    requires nextId !in venues
    ensures !dbError ==> nextId in c.table && c.table[nextId] == NewVenue(form)
    ensures dbError ==> c.table == venues
    ensures forall k :: k in venues ==> k in c.table && c.table[k] == venues[k]
    ensures c.outcome.Failure? <==> !Has(form, "name")
    ensures c.outcome.Failure? ==> c.outcome.error == Http.Uncaught
  {
    CreateSubmission(venues, nextId, NewVenue(form), "Venue", form, dbError)
  }

  /** `POST /artists/create`. */
  function CreateArtist(artists: map<int, ArtistFields>, nextId: int, form: Form, dbError: bool): (c: Created<ArtistFields>)
    requires nextId !in artists
    ensures !dbError ==> nextId in c.table && c.table[nextId] == NewArtist(form)
    ensures dbError ==> c.table == artists
    ensures forall k :: k in artists ==> k in c.table && c.table[k] == artists[k]
    ensures c.outcome.Failure? <==> !Has(form, "name")
    ensures c.outcome.Failure? ==> c.outcome.error == Http.Uncaught
  {
    CreateSubmission(artists, nextId, NewArtist(form), "Artist", form, dbError)
  }

  /** A venue form without `name` is still inserted, with a `None` name, and the
      request then fails with a server error: the row outlives the error page. */
  lemma NamelessVenueInsertedThenFails(venues: map<int, VenueFields>, nextId: int, form: Form)
    requires nextId !in venues
    requires forall i :: 0 <= i < |form| ==> form[i].0 != "name"
    ensures var c := CreateVenue(venues, nextId, form, false);
            && c.outcome == Failure(Http.Uncaught)
            && nextId in c.table && c.table[nextId].name == Json.Null
  {
  }

  /** A created venue reads back what the form said: the seeking flag is set
      exactly for a submitted `y`, and a missing description is stored as `""`. */
  lemma CreatedVenueReadsBack(venues: map<int, VenueFields>, nextId: int, form: Form, description: string)
    requires nextId !in venues
    requires Get(form, "seeking_description") == Some(description)
    ensures var row := CreateVenue(venues, nextId, form, false).table[nextId];
            && (Get(form, "seeking_talent") == Some("y") <==> row.seekingTalent == Json.Bool(true))
            && row.seekingDescription == Json.Str(description)
  {
  }

  /** `POST /artists/<artist_id>/edit`: 404 for an unknown artist or a form that
      fails validation; otherwise every column is overwritten from the form, with
      `genres` taking only the first submitted value. */
  function EditArtist(artists: map<int, ArtistFields>, id: int, form: Form, valid: bool): (r: Result<map<int, ArtistFields>, Http.Fault>)
    ensures r.Failure? <==> id !in artists || !valid
    ensures r.Failure? ==> r.error == Http.Abort(404)
    ensures r.Success? ==> r.value.Keys == artists.Keys
    ensures r.Success? ==> forall k :: k in artists && k != id ==> r.value[k] == artists[k]
    ensures r.Success? ==> r.value[id] == NewArtist(form).(genres := FieldValue(form, "genres"))
  {
    if id !in artists || !valid then Failure(Http.Abort(404))
    else
      var a := artists[id];
      var a := a.(name := FieldValue(form, "name"), genres := FieldValue(form, "genres"),
                  city := FieldValue(form, "city"), state := FieldValue(form, "state"),
                  phone := FieldValue(form, "phone"), website := FieldValue(form, "website"),
                  facebookLink := FieldValue(form, "facebook_link"), imageLink := FieldValue(form, "image_link"));
      var a := a.(seekingDescription := Json.Str(SeekingDescription(form)));
      var a := a.(seekingVenue := Json.Bool(SeekingFlag(form, "seeking_venue")));
      Success(artists[id := a])
  }

  /** A created artist reads back what the form said: the name, every submitted
      genre in order, the seeking flag for a submitted `y`, and the description. */
  lemma CreatedArtistReadsBack(artists: map<int, ArtistFields>, nextId: int, form: Form, name: string, description: string)
    requires nextId !in artists
    requires Get(form, "name") == Some(name)
    requires Get(form, "seeking_description") == Some(description)
    ensures var c := CreateArtist(artists, nextId, form, false);
            var row := c.table[nextId];
            && c.outcome.Success?
            && row.name == Json.Str(name)
            && row.genres == Json.StrList(Values(Filter(form, FieldIs("genres"))))
            && (Get(form, "seeking_venue") == Some("y") <==> row.seekingVenue == Json.Bool(true))
            && row.seekingDescription == Json.Str(description)
  {
    var a := NewArtist(form);
    var c := CreateArtist(artists, nextId, form, false);
    assert c == CreateSubmission(artists, nextId, a, "Artist", form, false);
    assert c.table[nextId] == a;
    assert Has(form, "name");
  }

  /** `POST /venues/<venue_id>/edit` as the source has it: after the plain columns
      are copied, `name` is assigned the seeking description and then the seeking
      flag, and the two seeking columns are never written. */
  function EditVenueAsWritten(venues: map<int, VenueFields>, id: int, form: Form, valid: bool): (r: Result<map<int, VenueFields>, Http.Fault>)
    ensures r.Failure? <==> id !in venues || !valid
    ensures r.Failure? ==> r.error == Http.Abort(404)
    ensures r.Success? ==> r.value.Keys == venues.Keys
    ensures r.Success? ==> forall k :: k in venues && k != id ==> r.value[k] == venues[k]
    ensures r.Success? ==> r.value[id] == NewVenue(form).(genres := FieldValue(form, "genres"),
                                                          name := Json.Bool(SeekingFlag(form, "seeking_talent")),
                                                          seekingTalent := venues[id].seekingTalent,
                                                          seekingDescription := venues[id].seekingDescription)
  {
    if id !in venues || !valid then Failure(Http.Abort(404))
    else
      var v := venues[id];
      var v := v.(name := FieldValue(form, "name"), genres := FieldValue(form, "genres"),
                  address := FieldValue(form, "address"), city := FieldValue(form, "city"),
                  state := FieldValue(form, "state"), phone := FieldValue(form, "phone"),
                  website := FieldValue(form, "website"), facebookLink := FieldValue(form, "facebook_link"),
                  imageLink := FieldValue(form, "image_link"));
      var v := v.(name := Json.Str(SeekingDescription(form)));
      var v := v.(name := Json.Bool(SeekingFlag(form, "seeking_talent")));
      Success(venues[id := v])
  }

  /** A concrete edit that shows the defect: renaming a venue to "The Musical Hop"
      while ticking "seeking talent" stores `True` as its name and
      leaves its seeking flag false. */
  lemma EditVenueAsWrittenLosesName()
    ensures var before := VenueFields(Json.Str("Old Hop"), Json.Null, Json.Null, Json.Null, Json.Null, Json.Null,
                                      Json.Null, Json.Null, Json.Null, Json.Bool(false), Json.Str(""));
            var form := [("name", "The Musical Hop"), ("seeking_talent", "y")];
            var r := EditVenueAsWritten(map[1 := before], 1, form, true);
            && r.Success?
            && r.value[1].name == Json.Bool(true)
            && r.value[1].name != Json.Str("The Musical Hop")
            && r.value[1].seekingTalent == Json.Bool(false)
  {
    var form: Form := [("name", "The Musical Hop"), ("seeking_talent", "y")];
    assert form[1] == ("seeking_talent", "y");
    assert Get(form, "seeking_talent") == Some("y");
  }

  /** `POST /venues/<venue_id>/edit` as evidently intended: like the artist edit,
      the name comes from the form and the seeking columns are written. */
  function EditVenue(venues: map<int, VenueFields>, id: int, form: Form, valid: bool): (r: Result<map<int, VenueFields>, Http.Fault>)
    ensures r.Failure? <==> id !in venues || !valid
    ensures r.Failure? ==> r.error == Http.Abort(404)
    ensures r.Success? ==> r.value.Keys == venues.Keys
    ensures r.Success? ==> forall k :: k in venues && k != id ==> r.value[k] == venues[k]
    ensures r.Success? ==> r.value[id] == NewVenue(form).(genres := FieldValue(form, "genres"))
  {
    if id !in venues || !valid then Failure(Http.Abort(404))
    else
      var v := venues[id];
      var v := v.(name := FieldValue(form, "name"), genres := FieldValue(form, "genres"),
                  address := FieldValue(form, "address"), city := FieldValue(form, "city"),
                  state := FieldValue(form, "state"), phone := FieldValue(form, "phone"),
                  website := FieldValue(form, "website"), facebookLink := FieldValue(form, "facebook_link"),
                  imageLink := FieldValue(form, "image_link"));
      var v := v.(seekingDescription := Json.Str(SeekingDescription(form)));
      var v := v.(seekingTalent := Json.Bool(SeekingFlag(form, "seeking_talent")));
      Success(venues[id := v])
  }

  /** Editing with a form and then editing again with the same form changes
      nothing more: the corrected edit is idempotent, and a venue edited from a form
      reads back the form's name. */
  lemma EditVenueIdempotent(venues: map<int, VenueFields>, id: int, form: Form)
    requires id in venues
    ensures var once := EditVenue(venues, id, form, true).value;
            && EditVenue(once, id, form, true) == Success(once)
            && once[id].name == FieldValue(form, "name")
            && once[id].seekingTalent == Json.Bool(SeekingFlag(form, "seeking_talent"))
  {
    var once := EditVenue(venues, id, form, true).value;
    var row := NewVenue(form).(genres := FieldValue(form, "genres"));
    var twice := EditVenue(once, id, form, true).value;
    assert once[id] == row && twice[id] == row;
    assert twice == once;
  }
}

=== FILE: fyyur_listings.dfy ===
/** Fyyur's listing pages: venues grouped into areas by city and state, and each
    venue's or artist's shows split into upcoming and past around the current time.
    Shows are (venue, artist, start time) records and the time is an integer. */
module FyyurListings {
  import opened Wrappers
  import opened Seqs

  datatype Venue = Venue(id: int, name: string, city: string, state: string)
  datatype Artist = Artist(id: int, name: string)
  datatype Show = Show(venueId: int, artistId: int, startTime: int)

  // ---------------------------------------------------------------- upcoming and past

  /** Whose shows are listed: a venue's or an artist's. */
  datatype Side = OfVenue | OfArtist

  function Party(s: Show, side: Side): int {
    match side
    case OfVenue => s.venueId
    case OfArtist => s.artistId
  }

  function BelongsTo(side: Side, id: int): Show -> bool {
    (s: Show) => Party(s, side) == id
  }

  function After(now: int): Show -> bool {
    (s: Show) => s.startTime > now
  }

  function NotAfter(now: int): Show -> bool {
    (s: Show) => s.startTime <= now
  }

  function UpcomingOf(side: Side, id: int, now: int): Show -> bool {
    (s: Show) => Party(s, side) == id && s.startTime > now
  }

  function PastOf(side: Side, id: int, now: int): Show -> bool {
    (s: Show) => Party(s, side) == id && s.startTime <= now
  }

  /** The shows of one venue or artist. */
  function ShowsOf(shows: seq<Show>, side: Side, id: int): seq<Show> {
    Filter(shows, BelongsTo(side, id))
  }

  /** The query `start_time > now` on one venue's or artist's shows. */
  function UpcomingShows(shows: seq<Show>, side: Side, id: int, now: int): seq<Show> {
    Filter(shows, UpcomingOf(side, id, now))
  }

  /** The query `start_time <= now` on one venue's or artist's shows. */
  function PastShows(shows: seq<Show>, side: Side, id: int, now: int): seq<Show> {
    Filter(shows, PastOf(side, id, now))
  }

  /** The two queries split the shows of a venue or artist: each show is in
      exactly one of them, and together they are all of its shows. */
  lemma UpcomingAndPastPartition(shows: seq<Show>, side: Side, id: int, now: int)
    ensures multiset(UpcomingShows(shows, side, id, now)) + multiset(PastShows(shows, side, id, now))
         == multiset(ShowsOf(shows, side, id))
    ensures |UpcomingShows(shows, side, id, now)| + |PastShows(shows, side, id, now)| == |ShowsOf(shows, side, id)|
  {
    FilterConj(shows, BelongsTo(side, id), After(now), UpcomingOf(side, id, now));
    FilterConj(shows, BelongsTo(side, id), NotAfter(now), PastOf(side, id, now));
    FilterPartition(ShowsOf(shows, side, id), After(now), NotAfter(now));
  }

  /** The show part of a venue or artist page. */
  datatype ShowListing = ShowListing(upcomingShows: seq<Show>, upcomingShowsCount: int, pastShows: seq<Show>, pastShowsCount: int)

  function Listing(shows: seq<Show>, side: Side, id: int, now: int): (l: ShowListing)
    ensures l.upcomingShowsCount == |l.upcomingShows| && l.pastShowsCount == |l.pastShows|
    ensures forall i :: 0 <= i < |l.upcomingShows| ==>
              l.upcomingShows[i] in shows && Party(l.upcomingShows[i], side) == id && l.upcomingShows[i].startTime > now
    ensures forall i :: 0 <= i < |l.pastShows| ==>
              l.pastShows[i] in shows && Party(l.pastShows[i], side) == id && l.pastShows[i].startTime <= now
    ensures multiset(l.upcomingShows) + multiset(l.pastShows) == multiset(ShowsOf(shows, side, id))
  {
    UpcomingAndPastPartition(shows, side, id, now);
    var upcoming := UpcomingShows(shows, side, id, now);
    var past := PastShows(shows, side, id, now);
    ShowListing(upcoming, |upcoming|, past, |past|)
  }

  /** A detail page, or the 404 template (rendered with the default status 200). */
  datatype DetailPage<T> = Rendered(subject: T, listing: ShowListing) | NotFoundTemplate

  /** `GET /venues/<venue_id>`: `Venue.query.get(id)`, then the page or the 404 template. */
  function ShowVenue(venues: seq<Venue>, shows: seq<Show>, id: int, now: int): (p: DetailPage<Venue>)
    ensures p.NotFoundTemplate? <==> forall i :: 0 <= i < |venues| ==> venues[i].id != id
    ensures p.Rendered? ==> p.subject in venues && p.subject.id == id && p.listing == Listing(shows, OfVenue, id, now)
  {
    match First(venues, (v: Venue) => v.id == id)
    case None => NotFoundTemplate
    case Some(v) => Rendered(v, Listing(shows, OfVenue, id, now))
  }

  /** `GET /artists/<artist_id>`: `Artist.query.get(id)`, then the page or the 404 template. */
  function ShowArtist(artists: seq<Artist>, shows: seq<Show>, id: int, now: int): (p: DetailPage<Artist>)
    ensures p.NotFoundTemplate? <==> forall i :: 0 <= i < |artists| ==> artists[i].id != id
    ensures p.Rendered? ==> p.subject in artists && p.subject.id == id && p.listing == Listing(shows, OfArtist, id, now)
  {
    match First(artists, (a: Artist) => a.id == id)
    case None => NotFoundTemplate
    case Some(a) => Rendered(a, Listing(shows, OfArtist, id, now))
  }

  // ---------------------------------------------------------------- areas

  /** The dictionary key a venue is filed under: `city + state`. */
  function Key(v: Venue): string {
    v.city + v.state
  }

  datatype VenueEntry = VenueEntry(id: int, name: string, numUpcomingShows: int)

  /** One value of the `data` dictionary: an area's city, state and venues. */
  datatype Area = Area(city: string, state: string, venues: seq<VenueEntry>)

  function AreaKey(a: Area): string {
    a.city + a.state
  }

  /** The entry a venue contributes: its id, its name and its number of upcoming shows. */
  function Entry(v: Venue, shows: seq<Show>, now: int): VenueEntry {
    VenueEntry(v.id, v.name, |UpcomingShows(shows, OfVenue, v.id, now)|)
  }

  /** The entries of a sequence of venues, in order. */
  function Entries(vs: seq<Venue>, shows: seq<Show>, now: int): (r: seq<VenueEntry>)
    ensures |r| == |vs|
    ensures forall i :: 0 <= i < |vs| ==> r[i] == Entry(vs[i], shows, now)
    decreases |vs|
  {
    if |vs| == 0 then [] else Entries(vs[..|vs| - 1], shows, now) + [Entry(vs[|vs| - 1], shows, now)]
  }

  /** The venues filed under `key`, in query order. */
  function WithKey(vs: seq<Venue>, key: string): (r: seq<Venue>)
    ensures forall i :: 0 <= i < |r| ==> r[i] in vs && Key(r[i]) == key
    ensures forall i :: 0 <= i < |vs| && Key(vs[i]) == key ==> vs[i] in r
    decreases |vs|
  {
    if |vs| == 0 then []
    else
      var rest := WithKey(vs[..|vs| - 1], key);
      assert forall i :: 0 <= i < |vs| - 1 ==> vs[..|vs| - 1][i] == vs[i];
      if Key(vs[|vs| - 1]) == key then rest + [vs[|vs| - 1]] else rest
  }

  /** No venue is filed under a key that none of them has. */
  lemma NoneWithKey(vs: seq<Venue>, key: string)
    requires key !in DistinctKeys(vs)
    ensures WithKey(vs, key) == []
  {
  }

  /** The keys of the venues in order of first appearance: the reference for the
      order of the areas (Python dictionaries keep insertion order). */
  function DistinctKeys(vs: seq<Venue>): (ks: seq<string>)
    ensures forall i, j :: 0 <= i < j < |ks| ==> ks[i] != ks[j]
    ensures forall k :: k in ks <==> exists i :: 0 <= i < |vs| && Key(vs[i]) == k
    decreases |vs|
  {
    if |vs| == 0 then []
    else
      var ks := DistinctKeys(vs[..|vs| - 1]);
      assert forall i :: 0 <= i < |vs| - 1 ==> vs[..|vs| - 1][i] == vs[i];
      if Key(vs[|vs| - 1]) in ks then ks else ks + [Key(vs[|vs| - 1])]
  }

  /** The position of the area filed under `key`, if any. */
  function FindArea(areas: seq<Area>, key: string, from: nat): (r: Option<nat>)
    requires from <= |areas|
    ensures r.Some? ==> from <= r.value < |areas| && AreaKey(areas[r.value]) == key
    ensures r.None? ==> forall j :: from <= j < |areas| ==> AreaKey(areas[j]) != key
    decreases |areas| - from
  {
    if from == |areas| then None
    else if AreaKey(areas[from]) == key then Some(from)
    else FindArea(areas, key, from + 1)
  }

  /** One turn of the loop: append the venue's entry to its area, or open a new
      area with the venue's own city and state. */
  function AddVenue(areas: seq<Area>, v: Venue, e: VenueEntry): seq<Area> {
    match FindArea(areas, Key(v), 0)
    case Some(m) => areas[m := areas[m].(venues := areas[m].venues + [e])]
    case None => areas + [Area(v.city, v.state, [e])]
  }

  /** `GET /venues`: the values of the `data` dictionary after the loop over all venues. */
  function GroupVenues(vs: seq<Venue>, shows: seq<Show>, now: int): seq<Area>
    decreases |vs|
  {
    if |vs| == 0 then []
    else AddVenue(GroupVenues(vs[..|vs| - 1], shows, now), vs[|vs| - 1], Entry(vs[|vs| - 1], shows, now))
  }

  /** What the grouping computes, stated against the reference definitions: the
      areas come in order of first appearance of their keys; each area lists, in
      query order, the entries of exactly the venues filed under its key; and its
      city and state are those of the first such venue. */
  lemma {:induction false} GroupingSpec(vs: seq<Venue>, shows: seq<Show>, now: int)
    ensures var areas := GroupVenues(vs, shows, now);
            && |areas| == |DistinctKeys(vs)|
            && (forall j :: 0 <= j < |areas| ==> AreaKey(areas[j]) == DistinctKeys(vs)[j])
            && (forall j :: 0 <= j < |areas| ==> areas[j].venues == Entries(WithKey(vs, AreaKey(areas[j])), shows, now))
            && (forall j :: 0 <= j < |areas| ==>
                  |WithKey(vs, AreaKey(areas[j]))| > 0
                  && areas[j].city == WithKey(vs, AreaKey(areas[j]))[0].city
                  && areas[j].state == WithKey(vs, AreaKey(areas[j]))[0].state)
    decreases |vs|
  {
    if |vs| > 0 {
      var pre := vs[..|vs| - 1];
      var v := vs[|vs| - 1];
      var e := Entry(v, shows, now);
      var a := GroupVenues(pre, shows, now);
      GroupingSpec(pre, shows, now);
      var areas := GroupVenues(vs, shows, now);
      assert areas == AddVenue(a, v, e);
      var dk := DistinctKeys(pre);
      match FindArea(a, Key(v), 0)
      case Some(m) =>
        assert Key(v) in dk;
        assert DistinctKeys(vs) == dk;
        assert areas == a[m := a[m].(venues := a[m].venues + [e])];
        forall j | 0 <= j < |areas|
          ensures AreaKey(areas[j]) == DistinctKeys(vs)[j]
          ensures areas[j].venues == Entries(WithKey(vs, AreaKey(areas[j])), shows, now)
          ensures |WithKey(vs, AreaKey(areas[j]))| > 0
          ensures areas[j].city == WithKey(vs, AreaKey(areas[j]))[0].city
          ensures areas[j].state == WithKey(vs, AreaKey(areas[j]))[0].state
        {
          var key := AreaKey(a[j]);
          var w := WithKey(pre, key);
          if j == m {
            assert WithKey(vs, key) == w + [v];
            assert (w + [v])[..|w|] == w;
            assert (w + [v])[0] == w[0];
          } else {
            assert dk[j] != dk[m];
            assert WithKey(vs, key) == w;
          }
        }
      case None =>
        assert Key(v) !in dk;
        assert DistinctKeys(vs) == dk + [Key(v)];
        assert areas == a + [Area(v.city, v.state, [e])];
        forall j | 0 <= j < |areas|
          ensures AreaKey(areas[j]) == DistinctKeys(vs)[j]
          ensures areas[j].venues == Entries(WithKey(vs, AreaKey(areas[j])), shows, now)
          ensures |WithKey(vs, AreaKey(areas[j]))| > 0
          ensures areas[j].city == WithKey(vs, AreaKey(areas[j]))[0].city
          ensures areas[j].state == WithKey(vs, AreaKey(areas[j]))[0].state
        {
          if j == |a| {
            NoneWithKey(pre, Key(v));
            assert WithKey(vs, Key(v)) == [v];
            assert Entries([v], shows, now) == [e];
          } else {
            assert AreaKey(a[j]) != Key(v);
            assert WithKey(vs, AreaKey(a[j])) == WithKey(pre, AreaKey(a[j]));
          }
        }
    }
  }

  /** Every venue appears in exactly one area: the one filed under its own
      `city + state`, so distinct pairs with equal concatenations share an area. */
  lemma VenueInExactlyOneArea(vs: seq<Venue>, shows: seq<Show>, now: int, i: nat)
    requires i < |vs|
    ensures var areas := GroupVenues(vs, shows, now);
            && (exists j :: 0 <= j < |areas| && AreaKey(areas[j]) == Key(vs[i]) && Entry(vs[i], shows, now) in areas[j].venues)
            && (forall j1, j2 :: 0 <= j1 < |areas| && 0 <= j2 < |areas| && AreaKey(areas[j1]) == Key(vs[i]) && AreaKey(areas[j2]) == Key(vs[i]) ==> j1 == j2)
  {
    var areas := GroupVenues(vs, shows, now);
    GroupingSpec(vs, shows, now);
    var dk := DistinctKeys(vs);
    assert Key(vs[i]) in dk;
    var j :| 0 <= j < |dk| && dk[j] == Key(vs[i]);
    var w := WithKey(vs, Key(vs[i]));
    var k :| 0 <= k < |w| && w[k] == vs[i];
    assert Entries(w, shows, now)[k] == Entry(vs[i], shows, now);
    assert AreaKey(areas[j]) == Key(vs[i]) && Entry(vs[i], shows, now) in areas[j].venues;
  }
}

=== FILE: http.dfy ===
/** How a Flask request handler can end other than with its normal response. */
module Http {

  /** `Abort(status)` is a call to Flask's `abort(status)`; `Uncaught` is any other
      Python exception escaping the handler, which Flask answers with status 500. */
  datatype Fault = Abort(status: int) | Uncaught

  /** The HTTP status Flask answers a fault with. */
  function StatusOf(f: Fault): int {
    match f
    case Abort(s) => s
    case Uncaught => 500
  }
}

=== FILE: json.dfy ===
/** A decoded JSON document as the Python code sees it: `None`, booleans, integers,
    strings, lists and dictionaries, with Python's truthiness and the `in` operator. */
module Json {
  import opened Wrappers
  import PyStr

  datatype Value =
    | Null
    | Bool(b: bool)
    | Num(n: int)
    | Str(s: string)
    | Arr(items: seq<Value>)
    | Obj(fields: map<string, Value>)

  /** Python's `bool(v)`: `None`, `False`, `0` and empty strings, lists and
      dictionaries are false; everything else is true. */
  predicate Truthy(v: Value) {
    match v
    case Null => false
    case Bool(b) => b
    case Num(n) => n != 0
    case Str(s) => |s| > 0
    case Arr(xs) => |xs| > 0
    case Obj(m) => |m| > 0
  }

  /** Python's `v.get(key)`: the entry of a dictionary, `None` when the key is
      missing, and an `AttributeError` (here `None`) when `v` is not a dictionary. */
  function Get(v: Value, key: string): (r: Option<Value>)
    ensures r.Some? <==> v.Obj?
    ensures v.Obj? && key in v.fields ==> r == Some(v.fields[key])
    ensures v.Obj? && key !in v.fields ==> r == Some(Null)
  {
    match v
    case Obj(m) => Some(if key in m then m[key] else Null)
    case _ => None
  }

  /** Python's `item in container` for a string `item`: list membership, a
      substring test on a string, a key test on a dictionary, and a `TypeError`
      (here `None`) for `None`, booleans and numbers. */
  function StrIn(item: string, container: Value): (r: Option<bool>)
    ensures container.Arr? ==> r == Some(Str(item) in container.items)
    ensures container.Obj? ==> r == Some(item in container.fields)
    ensures container.Str? ==> r.Some? && (r.value <==> exists i :: PyStr.OccursAt(container.s, item, i))
    ensures r.None? <==> container.Null? || container.Bool? || container.Num?
  {
    match container
    case Arr(xs) => Some(Str(item) in xs)
    case Str(s) => Some(PyStr.Contains(s, item))
    case Obj(m) => Some(item in m)
    case _ => None
  }

  /** A JSON list of strings. */
  function StrList(xs: seq<string>): (r: Value)
    ensures r.Arr? && |r.items| == |xs|
    ensures forall i :: 0 <= i < |xs| ==> r.items[i] == Str(xs[i])
  {
    Arr(seq(|xs|, i requires 0 <= i < |xs| => Str(xs[i])))
  }

  /** For a list of strings, Python's `in` is plain membership. */
  lemma StrInStrList(item: string, xs: seq<string>)
    ensures StrIn(item, StrList(xs)) == Some(item in xs)
  {
    var v := StrList(xs);
    if item in xs {
      var i :| 0 <= i < |xs| && xs[i] == item;
      assert v.items[i] == Str(item);
    }
  }

  /** Python's `i == v` for an integer `i`: numbers compare by value and a
      boolean is the integer `1` or `0`; nothing else equals an integer. */
  predicate IntEquals(i: int, v: Value) {
    match v
    case Num(n) => n == i
    case Bool(b) => i == if b then 1 else 0
    case _ => false
  }

  /** Python's `item in container` for an integer `item`: list membership by
      `==`, a key test on a dictionary (whose keys are strings, so never), and a
      `TypeError` (here `None`) for `None`, booleans, numbers and strings. */
  function IntIn(item: int, container: Value): (r: Option<bool>)
    ensures r.None? <==> !(container.Arr? || container.Obj?)
    ensures container.Arr? ==> r == Some(exists k :: 0 <= k < |container.items| && IntEquals(item, container.items[k]))
    ensures container.Obj? ==> r == Some(false)
  {
    match container
    case Arr(xs) => Some(exists k :: 0 <= k < |xs| && IntEquals(item, xs[k]))
    case Obj(_) => Some(false)
    case _ => None
  }

  /** A JSON list of integers. */
  function IntList(xs: seq<int>): (r: Value)
    ensures r.Arr? && |r.items| == |xs|
    ensures forall i :: 0 <= i < |xs| ==> r.items[i] == Num(xs[i])
  {
    Arr(seq(|xs|, i requires 0 <= i < |xs| => Num(xs[i])))
  }

  /** For a list of integers, Python's `in` is plain membership. */
  lemma IntInIntList(item: int, xs: seq<int>)
    ensures IntIn(item, IntList(xs)) == Some(item in xs)
  {
    var v := IntList(xs);
    if item in xs {
      var i :| 0 <= i < |xs| && xs[i] == item;
      assert IntEquals(item, v.items[i]);
    }
  }

  /** A Python value bound as a parameter against a text column of SQLite:
      `None` is NULL, a string is kept, and an integer or boolean is taken as its
      decimal text by the column's text affinity (`True` is `1`); a list or a
      dictionary cannot be bound at all (`None` here). */
  function SqlText(v: Value): (r: Option<Option<string>>)
    ensures r.None? <==> v.Arr? || v.Obj?
    ensures r == Some(None) <==> v.Null?
    ensures v.Str? ==> r == Some(Some(v.s))
    ensures v.Num? ==> r == Some(Some(PyStr.IntText(v.n)))
  {
    match v
    case Null => Some(None)
    case Bool(b) => Some(Some(if b then "1" else "0"))
    case Num(n) => Some(Some(PyStr.IntText(n)))
    case Str(s) => Some(Some(s))
    case _ => None
  }
}

=== FILE: pystr.dfy ===
/** The few Python `str` operations the applications rely on, over `seq<char>`. */
module PyStr {

  /** Python's `s.split(sep)` for a one-character separator: the text is cut at
      every occurrence of `sep` and empty pieces are kept, so `"".split(" ")` is
      `[""]` and `"a  b".split(" ")` is `["a", "", "b"]`. */
  function Split(s: string, sep: char): (parts: seq<string>)
    ensures |parts| >= 1
    ensures forall i :: 0 <= i < |parts| ==> sep !in parts[i]
    decreases |s|
  {
    if |s| == 0 then [""]
    else
      var rest := Split(s[1..], sep);
      if s[0] == sep then [""] + rest
      else [[s[0]] + rest[0]] + rest[1..]
  }

  /** Python's `sep.join(parts)`. */
  function Join(parts: seq<string>, sep: char): string
    requires |parts| >= 1
    decreases |parts|
  {
    if |parts| == 1 then parts[0] else parts[0] + [sep] + Join(parts[1..], sep)
  }

  /** Joining the pieces of a split gives back the original text. */
  lemma {:induction false} JoinSplit(s: string, sep: char)
    ensures Join(Split(s, sep), sep) == s
    decreases |s|
  {
    if |s| > 0 {
      var rest := Split(s[1..], sep);
      JoinSplit(s[1..], sep);
      if s[0] == sep {
        assert ([""] + rest)[1..] == rest;
      } else {
        var parts := [[s[0]] + rest[0]] + rest[1..];
        assert parts[1..] == rest[1..];
        if |rest| > 1 {
          assert Join(rest, sep) == rest[0] + [sep] + Join(rest[1..], sep);
        }
        assert s == [s[0]] + s[1..];
      }
    }
  }

  /** Text without the separator splits into itself alone. */
  lemma {:induction false} SplitWithoutSeparator(a: string, sep: char)
    requires sep !in a
    ensures Split(a, sep) == [a]
    decreases |a|
  {
    if |a| > 0 {
      SplitWithoutSeparator(a[1..], sep);
      assert a == [a[0]] + a[1..];
    }
  }

  /** Splitting at the first separator. */
  lemma {:induction false} SplitAtFirst(a: string, b: string, sep: char)
    requires sep !in a
    ensures Split(a + [sep] + b, sep) == [a] + Split(b, sep)
    decreases |a|
  {
    var s := a + [sep] + b;
    if |a| == 0 {
      assert s[1..] == b;
    } else {
      assert s[1..] == a[1..] + [sep] + b;
      SplitAtFirst(a[1..], b, sep);
      assert a == [a[0]] + a[1..];
    }
  }

  /** Splitting a join of separator-free pieces gives back the pieces. */
  lemma {:induction false} SplitJoin(parts: seq<string>, sep: char)
    requires |parts| >= 1
    requires forall i :: 0 <= i < |parts| ==> sep !in parts[i]
    ensures Split(Join(parts, sep), sep) == parts
    decreases |parts|
  {
    if |parts| == 1 {
      SplitWithoutSeparator(parts[0], sep);
    } else {
      SplitJoin(parts[1..], sep);
      SplitAtFirst(parts[0], Join(parts[1..], sep), sep);
      assert parts == [parts[0]] + parts[1..];
    }
  }

  /** `s.split(sep)` has exactly two pieces `[a, b]` exactly when `s` is
      `a + sep + b` with neither piece holding the separator. */
  lemma TwoPieces(s: string, sep: char, a: string, b: string)
    ensures Split(s, sep) == [a, b] <==> (s == a + [sep] + b && sep !in a && sep !in b)
  {
    if Split(s, sep) == [a, b] {
      JoinSplit(s, sep);
      assert Join([a, b], sep) == a + [sep] + Join([b], sep);
    }
    if s == a + [sep] + b && sep !in a && sep !in b {
      SplitJoin([a, b], sep);
      assert Join([a, b], sep) == a + [sep] + Join([b], sep);
    }
  }

  /** `needle` occurs in `hay` starting at position `i`. */
  ghost predicate OccursAt(hay: string, needle: string, i: int) {
    0 <= i && i + |needle| <= |hay| && hay[i..i + |needle|] == needle
  }

  /** Python's `needle in hay` for strings: a substring test. */
  function Contains(hay: string, needle: string): (r: bool)
    ensures r <==> exists i :: OccursAt(hay, needle, i)
    decreases |hay|
  {
    if |needle| <= |hay| && hay[..|needle|] == needle then
      assert OccursAt(hay, needle, 0);
      true
    else if |hay| == 0 then
      assert forall i :: !OccursAt(hay, needle, i);
      false
    else
      var r := Contains(hay[1..], needle);
      if r then
        assert exists i :: OccursAt(hay, needle, i) by {
          var k :| OccursAt(hay[1..], needle, k);
          assert hay[1..][k..k + |needle|] == hay[k + 1..k + 1 + |needle|];
          assert OccursAt(hay, needle, k + 1);
        }
        r
      else
        assert forall i :: OccursAt(hay, needle, i) && i >= 1 ==> OccursAt(hay[1..], needle, i - 1) by {
          forall i | OccursAt(hay, needle, i) && i >= 1
            ensures OccursAt(hay[1..], needle, i - 1)
          {
            assert hay[1..][i - 1..i - 1 + |needle|] == hay[i..i + |needle|];
          }
        }
        r
  }

  /** Lower-casing of one character; only the ASCII letters `A`-`Z` change. */
  function LowerChar(c: char): char {
    if 'A' <= c <= 'Z' then (c as int + 32) as char else c
  }

  /** Python's `s.lower()`, restricted to ASCII letters. */
  function Lower(s: string): (r: string)
    ensures |r| == |s|
    ensures forall i :: 0 <= i < |s| ==> r[i] == LowerChar(s[i])
    ensures forall i :: 0 <= i < |r| ==> !('A' <= r[i] <= 'Z')
  {
    seq(|s|, i requires 0 <= i < |s| => LowerChar(s[i]))
  }

  /** The decimal digits of a natural number, most significant first. */
  function Digits(n: nat): (r: string)
    ensures |r| > 0
    ensures forall i :: 0 <= i < |r| ==> '0' <= r[i] <= '9'
  {
    var last := ['0' + (n % 10) as char];
    if n < 10 then last else Digits(n / 10) + last
  }

  /** The value of a string of decimal digits. */
  function DigitsValue(s: string): nat
    requires forall i :: 0 <= i < |s| ==> '0' <= s[i] <= '9'
  {
    if |s| == 0 then 0 else DigitsValue(s[..|s| - 1]) * 10 + (s[|s| - 1] - '0') as nat
  }

  /** Python's `str(n)` for an integer: the digits, after a minus sign when negative. */
  function IntText(n: int): (r: string)
    ensures |r| > 0
    ensures r[0] == '-' <==> n < 0
    ensures n < 0 ==> r[1..] == Digits(-n)
    ensures n >= 0 ==> r == Digits(n)
  {
    if n < 0 then "-" + Digits(-n) else Digits(n)
  }

  /** Reading the digits back gives the number. */
  lemma {:induction false} DigitsRoundTrip(n: nat)
    ensures DigitsValue(Digits(n)) == n
  {
    var d := Digits(n);
    if n >= 10 {
      DigitsRoundTrip(n / 10);
      assert d[..|d| - 1] == Digits(n / 10);
    }
  }

  /** Distinct natural numbers have distinct digits. */
  lemma DigitsInjective(a: nat, b: nat)
    requires Digits(a) == Digits(b)
    ensures a == b
  {
    DigitsRoundTrip(a);
    DigitsRoundTrip(b);
  }

  /** Distinct integers have distinct texts. */
  lemma IntTextInjective(m: int, n: int)
    requires IntText(m) == IntText(n)
    ensures m == n
  {
    var t := IntText(m);
    assert (m < 0) == (n < 0) by {
      assert t[0] == IntText(n)[0];
    }
    if m < 0 {
      assert t[1..] == Digits(-m) && t[1..] == Digits(-n);
      DigitsInjective(-m, -n);
    } else {
      DigitsInjective(m, n);
    }
  }
}

=== FILE: question_bank.dfy ===
/** The question logic both trivia back ends share: paging, delete-or-404,
    substring search, category filtering and the quiz candidate filter. The
    `question` and `category` tables are sequences in query order. */
module QuestionBank {
  import opened Wrappers
  import opened Seqs
  import Http
  import PyStr
  import Json

  const QUESTIONS_PER_PAGE: nat := 10

  datatype Question = Question(id: int, question: string, answer: string, category: int, difficulty: int)

  /** A row of the `category` table; `kind` is the `type` column. */
  datatype Category = Category(id: int, kind: string)

  /** The `page` query argument, `None` when it is missing or empty. */
  function PageNumber(arg: Option<int>): (page: int)
    ensures arg.None? ==> page == 1
    ensures arg.Some? ==> page == arg.value
  {
    arg.GetOr(1)
  }

  /** `paginate(page, 10, False, 10)`: a page below 1 is treated as page 1. */
  function PageStart(page: int): nat {
    (if page < 1 then 0 else page - 1) * QUESTIONS_PER_PAGE
  }

  /** The questions on a page: positions `[(page-1)*10, page*10)`, cut at the end
      of the table; a page past the end is empty rather than an error. */
  function Page(qs: seq<Question>, page: int): (r: seq<Question>)
    ensures |r| <= QUESTIONS_PER_PAGE
    ensures PageStart(page) >= |qs| ==> r == []
    ensures PageStart(page) < |qs| ==> |r| == if |qs| - PageStart(page) < QUESTIONS_PER_PAGE then |qs| - PageStart(page) else QUESTIONS_PER_PAGE
    ensures forall i :: 0 <= i < |r| ==> PageStart(page) + i < |qs| && r[i] == qs[PageStart(page) + i]
  {
    var start := PageStart(page);
    if start >= |qs| then []
    else if start + QUESTIONS_PER_PAGE <= |qs| then qs[start..start + QUESTIONS_PER_PAGE]
    else qs[start..]
  }

  /** The pages tile the table: the question at position `i` is on page `i / 10 + 1`,
      at position `i % 10`. */
  lemma EveryQuestionOnItsPage(qs: seq<Question>, i: nat)
    requires i < |qs|
    ensures var p := Page(qs, i / QUESTIONS_PER_PAGE + 1);
            i % QUESTIONS_PER_PAGE < |p| && p[i % QUESTIONS_PER_PAGE] == qs[i]
  {
    var page := i / QUESTIONS_PER_PAGE + 1;
    assert PageStart(page) == i - i % QUESTIONS_PER_PAGE;
  }

  /** `filter_by(...).one_or_none()`: the single match, and for none or several
      matches an uncaught exception (an attribute read on `None`, or
      `MultipleResultsFound`). */
  function OneOrNone<T>(matches: seq<T>): (r: Result<T, Http.Fault>)
    ensures r.Success? <==> |matches| == 1
    ensures r.Success? ==> r.value == matches[0]
    ensures r.Failure? ==> r.error == Http.Uncaught
  {
    if |matches| == 1 then Success(matches[0]) else Failure(Http.Uncaught)
  }

  /** The category with a given id. */
  function CategoryById(cats: seq<Category>, id: int): Result<Category, Http.Fault> {
    OneOrNone(Filter(cats, (c: Category) => c.id == id))
  }

  /** The category has the given type. */
  function OfKind(kind: string): Category -> bool {
    (c: Category) => c.kind == kind
  }

  /** The id of the category with a given type: it exists exactly when one
      category has that type. */
  function CategoryIdByType(cats: seq<Category>, kind: string): (r: Result<int, Http.Fault>)
    ensures r.Success? <==> |Filter(cats, OfKind(kind))| == 1
    ensures r.Success? ==> r.value == Filter(cats, OfKind(kind))[0].id
    ensures r.Success? ==> exists i :: 0 <= i < |cats| && cats[i].kind == kind && cats[i].id == r.value
    ensures r.Failure? ==> r.error == Http.Uncaught
  {
    var c :- OneOrNone(Filter(cats, OfKind(kind)));
    Success(c.id)
  }

  predicate HasId(qs: seq<Question>, id: int) {
    exists i :: 0 <= i < |qs| && qs[i].id == id
  }

  /** Ids are primary keys. */
  predicate UniqueIds(qs: seq<Question>) {
    forall i, j :: 0 <= i < j < |qs| ==> qs[i].id != qs[j].id
  }

  /** `DELETE /questions/<id>`: 404 when no question has the id, otherwise the
      table without it. The response echoes the id. */
  function DeleteQuestion(qs: seq<Question>, id: int): (r: Result<seq<Question>, Http.Fault>)
    ensures r.Failure? <==> !HasId(qs, id)
    ensures r.Failure? ==> r.error == Http.Abort(404)
    ensures r.Success? ==> forall i :: 0 <= i < |r.value| ==> r.value[i].id != id && r.value[i] in qs
    ensures r.Success? ==> forall i :: 0 <= i < |qs| && qs[i].id != id ==> qs[i] in r.value
  {
    if !HasId(qs, id) then Failure(Http.Abort(404))
    else Success(Filter(qs, (q: Question) => q.id != id))
  }

  /** With unique ids a delete removes exactly one question and keeps the order of the rest. */
  lemma {:induction false} DeleteRemovesOne(qs: seq<Question>, id: int)
    requires UniqueIds(qs) && HasId(qs, id)
    ensures |DeleteQuestion(qs, id).value| == |qs| - 1
    decreases |qs|
  {
    if qs[0].id == id {
      assert forall i :: 0 <= i < |qs[1..]| ==> qs[1..][i].id != id;
      FilterAll(qs[1..], (q: Question) => q.id != id);
    } else {
      var i :| 0 <= i < |qs| && qs[i].id == id;
      assert qs[1..][i - 1].id == id;
      DeleteRemovesOne(qs[1..], id);
    }
  }

  /** The text `f"%{term}%"` puts between the wildcards: Python's `str()` of
      the `searchTerm` value, so a missing term searches for `None` and a number
      for its digits; `repr` stands for `str()` of a list or a dictionary. */
  function SearchText(term: Json.Value, repr: Json.Value -> string): (r: string)
    ensures term.Str? ==> r == term.s
    ensures term.Null? ==> r == "None"
    ensures term.Bool? ==> r == if term.b then "True" else "False"
    ensures term.Num? ==> r == PyStr.IntText(term.n)
    ensures term.Arr? || term.Obj? ==> r == repr(term)
  {
    match term
    case Null => "None"
    case Bool(b) => if b then "True" else "False"
    case Num(n) => PyStr.IntText(n)
    case Str(t) => t
    case _ => repr(term)
  }

  /** `json.loads(request.data).get("searchTerm")`, as text: an uncaught error
      unless the body is a JSON object. */
  function SearchTerm(body: Option<Json.Value>, repr: Json.Value -> string): (r: Result<string, Http.Fault>)
    ensures r.Success? <==> body.Some? && body.value.Obj?
    ensures r.Failure? ==> r.error == Http.Uncaught
    ensures r.Success? && "searchTerm" !in body.value.fields ==> r.value == "None"
    ensures r.Success? && "searchTerm" in body.value.fields ==> r.value == SearchText(body.value.fields["searchTerm"], repr)
  {
    if body.None? then Failure(Http.Uncaught)
    else
      match Json.Get(body.value, "searchTerm")
      case None => Failure(Http.Uncaught)
      case Some(term) => Success(SearchText(term, repr))
  }

  /** A number and its decimal text search for the same questions. */
  lemma NumberTermIsItsDigits(n: int, repr: Json.Value -> string)
    ensures SearchTerm(Some(Json.Obj(map["searchTerm" := Json.Num(n)])), repr)
         == SearchTerm(Some(Json.Obj(map["searchTerm" := Json.Str(PyStr.IntText(n))])), repr)
  {
  }

  /** `question LIKE %text%`, read as a substring test. */
  predicate Matches(q: Question, text: string) {
    PyStr.Contains(q.question, text)
  }

  /** `POST /questions/search`: the questions whose text contains the search
      text, in table order. */
  function Search(qs: seq<Question>, text: string): (r: seq<Question>)
    ensures forall i :: 0 <= i < |r| ==> r[i] in qs && Matches(r[i], text)
    ensures forall i :: 0 <= i < |qs| && Matches(qs[i], text) ==> qs[i] in r
  {
    Filter(qs, (q: Question) => Matches(q, text))
  }

  /** The questions of one category, in table order. */
  function InCategory(qs: seq<Question>, category: int): (r: seq<Question>)
    ensures forall i :: 0 <= i < |r| ==> r[i] in qs && r[i].category == category
    ensures forall i :: 0 <= i < |qs| && qs[i].category == category ==> qs[i] in r
  {
    Filter(qs, (q: Question) => q.category == category)
  }

  /** The response shape of a list of matches: the questions, their number, and
      `currentCategory`, the category of the last one (`None` for no match). */
  datatype QuestionList = QuestionList(questions: seq<Question>, totalQuestions: int, currentCategory: Option<int>)

  function ListMatches(matches: seq<Question>): (r: QuestionList)
    ensures r.questions == matches && r.totalQuestions == |r.questions|
    ensures r.currentCategory.None? <==> matches == []
    ensures r.currentCategory.Some? ==> r.currentCategory.value == matches[|matches| - 1].category
  {
    QuestionList(matches, |matches|, match Last(matches) case None => None case Some(q) => Some(q.category))
  }

  /** `GET /categories/<category_id>/questions`: the questions filed under the
      category, their number, and the category of the last one. */
  function QuestionsByCategory(qs: seq<Question>, categoryId: int): (r: QuestionList)
    ensures r.totalQuestions == |r.questions|
    ensures forall i :: 0 <= i < |r.questions| ==> r.questions[i] in qs && r.questions[i].category == categoryId
    ensures forall i :: 0 <= i < |qs| && qs[i].category == categoryId ==> qs[i] in r.questions
    ensures r.currentCategory.None? <==> r.questions == []
    ensures r.currentCategory.Some? ==> r.currentCategory.value == categoryId
  {
    ListMatches(InCategory(qs, categoryId))
  }

  /** The `type` of every category, in table order (`GET /categories`). */
  function CategoryTypes(cats: seq<Category>): (r: seq<string>)
    ensures |r| == |cats|
    ensures forall i :: 0 <= i < |cats| ==> r[i] == cats[i].kind
  {
    seq(|cats|, i requires 0 <= i < |cats| => cats[i].kind)
  }

  /** The two fields of a quiz request, each JSON `null` when missing. */
  datatype QuizRequest = QuizRequest(category: Json.Value, previous: Json.Value)

  /** `json.loads(request.data)` and the two `data.get` calls: an uncaught error
      unless the body is a JSON object. */
  function ParseQuizRequest(body: Option<Json.Value>): (r: Result<QuizRequest, Http.Fault>)
    ensures r.Success? <==> body.Some? && body.value.Obj?
    ensures r.Failure? ==> r.error == Http.Uncaught
    ensures r.Success? ==> Json.Get(body.value, "quiz_category") == Some(r.value.category)
                           && Json.Get(body.value, "previous_questions") == Some(r.value.previous)
  {
    if body.None? then Failure(Http.Uncaught)
    else
      match (Json.Get(body.value, "quiz_category"), Json.Get(body.value, "previous_questions"))
      case (Some(category), Some(previous)) => Success(QuizRequest(category, previous))
      case _ => Failure(Http.Uncaught)
  }

  /** The questions a quiz draws from: `quiz_category.get("type")` raises unless
      the category is a dictionary; the type `"click"` means every question; any
      other string must name exactly one category, whose questions are the pool.
      A type that is not a string raises: PostgreSQL refuses to compare the
      text column with a number, boolean, list or dictionary, and `None` becomes
      `IS NULL`, which matches no category, so `.id` is read from `None`. */
  function QuizPool(qs: seq<Question>, cats: seq<Category>, category: Json.Value): (r: Result<seq<Question>, Http.Fault>)
    ensures !category.Obj? ==> r == Failure(Http.Uncaught)
    ensures r.Failure? ==> r.error == Http.Uncaught
    ensures category.Obj? && Json.Get(category, "type") == Some(Json.Str("click")) ==> r == Success(qs)
    ensures forall kind :: category.Obj? && Json.Get(category, "type") == Some(Json.Str(kind)) && kind != "click" ==>
              (r.Success? <==> |Filter(cats, OfKind(kind))| == 1)
              && (r.Success? ==> r.value == InCategory(qs, Filter(cats, OfKind(kind))[0].id))
    ensures category.Obj? && !Json.Get(category, "type").value.Str? ==> r == Failure(Http.Uncaught)
  {
    var kind :- if category.Obj? then Success(Json.Get(category, "type").value) else Failure(Http.Uncaught);
    match kind
    case Str(k) =>
      if k == "click" then Success(qs)
      else
        var id :- CategoryIdByType(cats, k);
        Success(InCategory(qs, id))
    case _ => Failure(Http.Uncaught)
  }

  /** The question is not among `previous_questions` by Python's `not in`. */
  function NotAsked(previous: Json.Value): Question -> bool {
    (q: Question) => Json.IntIn(q.id, previous) == Some(false)
  }

  /** The questions a quiz may pick from: the pool without the previous ones.
      The `not in` test raises unless `previous_questions` is a list or a
      dictionary, but only when some question is left to test. */
  function QuizCandidates(qs: seq<Question>, cats: seq<Category>, req: QuizRequest): (r: Result<seq<Question>, Http.Fault>)
    ensures var pool := QuizPool(qs, cats, req.category);
            (r.Success? <==> pool.Success? && (req.previous.Arr? || req.previous.Obj? || pool.value == []))
            && (r.Success? ==> r.value == Filter(pool.value, NotAsked(req.previous)))
    ensures r.Failure? ==> r.error == Http.Uncaught
    ensures r.Success? ==> forall i :: 0 <= i < |r.value| ==> r.value[i] in qs && NotAsked(req.previous)(r.value[i])
  {
    var pool :- QuizPool(qs, cats, req.category);
    if |pool| == 0 then Success([])
    else if !(req.previous.Arr? || req.previous.Obj?) then Failure(Http.Uncaught)
    else Success(Filter(pool, NotAsked(req.previous)))
  }

  /** With the category `click`, every question not asked before is a candidate. */
  lemma CandidatesComplete(qs: seq<Question>, cats: seq<Category>, prev: seq<int>, q: Question)
    requires q in qs && q.id !in prev
    ensures var req := QuizRequest(Json.Obj(map["type" := Json.Str("click")]), Json.IntList(prev));
            QuizCandidates(qs, cats, req).Success? && q in QuizCandidates(qs, cats, req).value
  {
    Json.IntInIntList(q.id, prev);
  }

  /** With a category type that names exactly one category, every question of
      that category not asked before is a candidate, and every candidate is one. */
  lemma CategoryCandidatesComplete(qs: seq<Question>, cats: seq<Category>, kind: string, prev: seq<int>, q: Question)
    requires kind != "click" && |Filter(cats, OfKind(kind))| == 1
    ensures var req := QuizRequest(Json.Obj(map["type" := Json.Str(kind)]), Json.IntList(prev));
            var r := QuizCandidates(qs, cats, req);
            && r.Success?
            && (q in r.value <==> q in qs && q.category == Filter(cats, OfKind(kind))[0].id && q.id !in prev)
  {
    Json.IntInIntList(q.id, prev);
  }

  /** `POST /quizzes` as a whole: the request read from the body, then the candidates. */
  function QuizOutcome(qs: seq<Question>, cats: seq<Category>, body: Option<Json.Value>): Result<seq<Question>, Http.Fault> {
    var req :- ParseQuizRequest(body);
    QuizCandidates(qs, cats, req)
  }

  /** `POST /quizzes`: `random.choice` of the candidates, or `None` when there is
      none. The choice is any candidate. */
  method QuizQuestion(qs: seq<Question>, cats: seq<Category>, body: Option<Json.Value>) returns (r: Result<Option<Question>, Http.Fault>)
    ensures body.None? || !body.value.Obj? ==> r == Failure(Http.Uncaught)
    ensures r.Failure? <==> QuizOutcome(qs, cats, body).Failure?
    ensures r.Success? ==> (r.value.None? <==> QuizOutcome(qs, cats, body).value == [])
    ensures r.Success? && r.value.Some? ==> r.value.value in QuizOutcome(qs, cats, body).value
    ensures r.Success? && r.value.Some? ==>
              r.value.value in qs && NotAsked(ParseQuizRequest(body).value.previous)(r.value.value)
  {
    var candidates := QuizOutcome(qs, cats, body);
    if candidates.Failure? {
      return Failure(candidates.error);
    }
    if |candidates.value| == 0 {
      return Success(None);
    }
    assert candidates.value[0] in candidates.value;
    var q :| q in candidates.value;
    r := Success(Some(q));
  }
}

=== FILE: seqs.dfy ===
/** Generic sequence helpers: Python's `list(filter(p, xs))` and the last element. */
module Seqs {
  import opened Wrappers

  /** The elements of `s` that satisfy `p`, in their original order. */
  function Filter<T>(s: seq<T>, p: T -> bool): (r: seq<T>)
    ensures |r| <= |s|
    ensures forall i :: 0 <= i < |r| ==> p(r[i])
    ensures forall i :: 0 <= i < |r| ==> r[i] in s
    ensures forall i :: 0 <= i < |s| && p(s[i]) ==> s[i] in r
    decreases |s|
  {
    if |s| == 0 then []
    else if p(s[0]) then [s[0]] + Filter(s[1..], p)
    else Filter(s[1..], p)
  }

  /** The first element of `s` that satisfies `p`, if any. */
  function First<T>(s: seq<T>, p: T -> bool): (r: Option<T>)
    ensures r.None? <==> forall i :: 0 <= i < |s| ==> !p(s[i])
    ensures r.Some? ==> exists i :: 0 <= i < |s| && s[i] == r.value && p(s[i])
                                    && forall j :: 0 <= j < i ==> !p(s[j])
    decreases |s|
  {
    if |s| == 0 then None
    else if p(s[0]) then Some(s[0])
    else
      var r := First(s[1..], p);
      assert forall i :: 0 < i < |s| ==> s[1..][i - 1] == s[i];
      r
  }

  /** The last element, as the value a Python loop variable keeps after the loop. */
  function Last<T>(s: seq<T>): Option<T> {
    if |s| == 0 then None else Some(s[|s| - 1])
  }

  /** Filtering distributes over concatenation. */
  lemma {:induction false} FilterAppend<T>(a: seq<T>, b: seq<T>, p: T -> bool)
    ensures Filter(a + b, p) == Filter(a, p) + Filter(b, p)
    decreases |a|
  {
    if |a| == 0 {
      assert a + b == b;
    } else {
      assert (a + b)[0] == a[0];
      assert (a + b)[1..] == a[1..] + b;
      FilterAppend(a[1..], b, p);
    }
  }

  /** A filter whose predicate holds everywhere keeps the whole sequence. */
  lemma {:induction false} FilterAll<T>(s: seq<T>, p: T -> bool)
    requires forall i :: 0 <= i < |s| ==> p(s[i])
    ensures Filter(s, p) == s
    decreases |s|
  {
    if |s| > 0 {
      FilterAll(s[1..], p);
    }
  }

  /** Filtering on a conjunction is filtering twice. */
  lemma {:induction false} FilterConj<T>(s: seq<T>, p: T -> bool, q: T -> bool, pq: T -> bool)
    requires forall x :: pq(x) == (p(x) && q(x))
    ensures Filter(s, pq) == Filter(Filter(s, p), q)
    decreases |s|
  {
    if |s| > 0 {
      FilterConj(s[1..], p, q, pq);
      if p(s[0]) {
        assert Filter(s, p) == [s[0]] + Filter(s[1..], p);
        assert Filter(s, p)[1..] == Filter(s[1..], p);
      }
    }
  }

  /** A predicate and its negation split a sequence: every element lands in exactly
      one of the two filters, so the two are a partition of `s` as a multiset. */
  lemma {:induction false} FilterPartition<T>(s: seq<T>, p: T -> bool, q: T -> bool)
    requires forall x :: q(x) == !p(x)
    ensures multiset(Filter(s, p)) + multiset(Filter(s, q)) == multiset(s)
    ensures |Filter(s, p)| + |Filter(s, q)| == |s|
    decreases |s|
  {
    if |s| > 0 {
      FilterPartition(s[1..], p, q);
      assert s == [s[0]] + s[1..];
    }
  }
}

=== FILE: trivia.dfy ===
/** The routes of the first trivia back end that shape question lists. */
module Trivia {
  import opened Wrappers
  import opened Seqs
  import Http
  import PyStr
  import Json
  import opened QuestionBank

  /** `GET /questions`: one page of questions, the lower-cased category type of
      each, the category of the last one, and the size of the whole table. */
  datatype QuestionsPage = QuestionsPage(questions: seq<Question>, totalQuestions: int, categories: seq<string>, currentCategory: Option<int>)

  /** The question's category has exactly one row. */
  predicate HasCategory(cats: seq<Category>, q: Question) {
    CategoryById(cats, q.category).Success?
  }

  /** The lower-cased category type of each question, looked up one by one; the
      first question whose category is missing (or duplicated) makes the whole
      request fail. */
  function CategoryNames(items: seq<Question>, cats: seq<Category>): (r: Result<seq<string>, Http.Fault>)
    ensures r.Success? <==> forall i :: 0 <= i < |items| ==> HasCategory(cats, items[i])
    ensures r.Failure? ==> r.error == Http.Uncaught
    ensures r.Success? ==> |r.value| == |items|
    ensures r.Success? ==> forall i :: 0 <= i < |items| ==>
              exists c :: 0 <= c < |cats| && cats[c].id == items[i].category && r.value[i] == PyStr.Lower(cats[c].kind)
    decreases |items|
  {
    if |items| == 0 then Success([])
    else
      var c :- CategoryById(cats, items[0].category);
      var rest :- CategoryNames(items[1..], cats);
      assert c in cats;
      Success([PyStr.Lower(c.kind)] + rest)
  }

  function GetQuestions(qs: seq<Question>, cats: seq<Category>, pageArg: Option<int>): (r: Result<QuestionsPage, Http.Fault>)
    ensures r.Success? ==> r.value.questions == Page(qs, PageNumber(pageArg))
    ensures r.Success? ==> r.value.totalQuestions == |qs|
    ensures r.Success? ==> CategoryNames(r.value.questions, cats) == Success(r.value.categories)
    ensures r.Success? ==> |r.value.categories| == |r.value.questions|
    ensures r.Success? ==> (r.value.currentCategory.None? <==> r.value.questions == [])
    ensures r.Success? && r.value.currentCategory.Some? ==>
              r.value.currentCategory.value == r.value.questions[|r.value.questions| - 1].category
    ensures r.Failure? <==> exists i :: 0 <= i < |Page(qs, PageNumber(pageArg))| && !HasCategory(cats, Page(qs, PageNumber(pageArg))[i])
  {
    var items := Page(qs, PageNumber(pageArg));
    var names := CategoryNames(items, cats);
    if names.Failure? then Failure(names.error)
    else Success(QuestionsPage(items, |qs|, names.value, ListMatches(items).currentCategory))
  }

  /** Page 1 is served when no page is asked for; every page has at most ten
      questions and the total never depends on the page. */
  lemma PagingDefaults(qs: seq<Question>, cats: seq<Category>, p: int)
    requires GetQuestions(qs, cats, Some(p)).Success?
    requires GetQuestions(qs, cats, None).Success?
    ensures GetQuestions(qs, cats, None) == GetQuestions(qs, cats, Some(1))
    ensures |GetQuestions(qs, cats, Some(p)).value.questions| <= 10
    ensures GetQuestions(qs, cats, Some(p)).value.totalQuestions == GetQuestions(qs, cats, None).value.totalQuestions
  {
  }

  /** `POST /questions/search`: the matches, their number and the category of
      the last one; a body that is not a JSON object raises. */
  function SearchQuestions(qs: seq<Question>, body: Option<Json.Value>, repr: Json.Value -> string): (r: Result<QuestionList, Http.Fault>)
    ensures r.Failure? <==> body.None? || !body.value.Obj?
    ensures r.Failure? ==> r.error == Http.Uncaught
    ensures r.Success? ==> r.value.totalQuestions == |r.value.questions|
    ensures r.Success? ==> var text := SearchTerm(body, repr).value;
              && (forall i :: 0 <= i < |r.value.questions| ==> r.value.questions[i] in qs && Matches(r.value.questions[i], text))
              && (forall i :: 0 <= i < |qs| && Matches(qs[i], text) ==> qs[i] in r.value.questions)
    ensures r.Success? ==> (r.value.currentCategory.None? <==> r.value.questions == [])
  {
    var text :- SearchTerm(body, repr);
    Success(ListMatches(Search(qs, text)))
  }
}

=== FILE: trivia_starter.dfy ===
/** The routes of the second trivia back end that differ from the first: the page
    carries every category type and an empty current category, and search reports
    the distinct categories of its matches. */
module TriviaStarter {
  import opened Wrappers
  import Http
  import Json
  import opened QuestionBank

  datatype StarterPage = StarterPage(questions: seq<Question>, totalQuestions: int, currentCategory: seq<int>, categories: seq<string>)

  /** `GET /questions`: the page, the table size, an empty `currentCategory`
      list, and the type of every category whatever the page holds. */
  function GetQuestions(qs: seq<Question>, cats: seq<Category>, pageArg: Option<int>): (r: StarterPage)
    ensures r.questions == Page(qs, PageNumber(pageArg))
    ensures |r.questions| <= QUESTIONS_PER_PAGE
    ensures r.totalQuestions == |qs|
    ensures r.currentCategory == []
    ensures |r.categories| == |cats| && forall i :: 0 <= i < |cats| ==> r.categories[i] == cats[i].kind
  {
    StarterPage(Page(qs, PageNumber(pageArg)), |qs|, [], CategoryTypes(cats))
  }

  /** Some question of `qs` is filed under category `c`. */
  predicate Files(qs: seq<Question>, c: int) {
    exists k :: 0 <= k < |qs| && qs[k].category == c
  }

  /** The categories, without repetition, of a list of questions: the source
      collects them in a Python `set`, whose order is unspecified; this model keeps
      first appearance, and its contract speaks only of contents. */
  method DistinctCategories(matches: seq<Question>) returns (cats: seq<int>)
    ensures forall i, j :: 0 <= i < j < |cats| ==> cats[i] != cats[j]
    ensures forall i :: 0 <= i < |cats| ==> Files(matches, cats[i])
    ensures forall k :: 0 <= k < |matches| ==> matches[k].category in cats
  {
    cats := [];
    for n := 0 to |matches|
      invariant forall i, j :: 0 <= i < j < |cats| ==> cats[i] != cats[j]
      invariant forall i :: 0 <= i < |cats| ==> Files(matches[..n], cats[i])
      invariant forall k :: 0 <= k < n ==> matches[k].category in cats
    {
      assert forall i :: 0 <= i < |cats| && Files(matches[..n], cats[i]) ==> Files(matches[..n + 1], cats[i]) by {
        forall i | 0 <= i < |cats| && Files(matches[..n], cats[i])
          ensures Files(matches[..n + 1], cats[i])
        {
          var k :| 0 <= k < n && matches[..n][k].category == cats[i];
          assert matches[..n + 1][k] == matches[k];
        }
      }
      if matches[n].category !in cats {
        assert matches[..n + 1][n] == matches[n];
        cats := cats + [matches[n].category];
      }
    }
    assert matches[..|matches|] == matches;
  }

  datatype SearchResult = SearchResult(questions: seq<Question>, totalQuestions: int, currentCategory: seq<int>)

  /** `POST /questions/search`: the matches, their number, and their distinct
      categories; a body that is not a JSON object raises. */
  method SearchQuestions(qs: seq<Question>, body: Option<Json.Value>, repr: Json.Value -> string) returns (r: Result<SearchResult, Http.Fault>)
    ensures r.Failure? <==> body.None? || !body.value.Obj?
    ensures r.Failure? ==> r.error == Http.Uncaught
    ensures r.Success? ==> r.value.questions == Search(qs, SearchTerm(body, repr).value)
    ensures r.Success? ==> r.value.totalQuestions == |r.value.questions|
    ensures r.Success? ==> forall i, j :: 0 <= i < j < |r.value.currentCategory| ==> r.value.currentCategory[i] != r.value.currentCategory[j]
    ensures r.Success? ==> forall c :: c in r.value.currentCategory <==>
              exists k :: 0 <= k < |r.value.questions| && r.value.questions[k].category == c
  {
    var text :- SearchTerm(body, repr);
    var matches := Search(qs, text);
    var cats := DistinctCategories(matches);
    r := Success(SearchResult(matches, |matches|, cats));
  }

  /** `DELETE /questions/<id>`: the same rule as the first back end. */
  function DeleteQuestion(qs: seq<Question>, id: int): (r: Result<int, Http.Fault>)
    ensures r.Failure? <==> !HasId(qs, id)
    ensures r.Failure? ==> r.error == Http.Abort(404)
    ensures r.Success? ==> r.value == id
  {
    var remaining :- QuestionBank.DeleteQuestion(qs, id);
    Success(id)
  }

  /** `POST /quizzes`: the same request handling as the first back end; a
      returned question is one of the candidates, never one of
      `previous_questions`, and there is none exactly when no candidate is left. */
  method QuizQuestion(qs: seq<Question>, cats: seq<Category>, body: Option<Json.Value>) returns (r: Result<Option<Question>, Http.Fault>)
    ensures body.None? || !body.value.Obj? ==> r == Failure(Http.Uncaught)
    ensures r.Failure? <==> QuizOutcome(qs, cats, body).Failure?
    ensures r.Success? ==> (r.value.None? <==> QuizOutcome(qs, cats, body).value == [])
    ensures r.Success? && r.value.Some? ==> r.value.value in QuizOutcome(qs, cats, body).value
    ensures r.Success? && r.value.Some? ==>
              r.value.value in qs && NotAsked(ParseQuizRequest(body).value.previous)(r.value.value)
  {
    r := QuestionBank.QuizQuestion(qs, cats, body);
  }
}

=== FILE: wrappers.dfy ===
/** Failure-compatible wrappers used across the model: `Option` for a value that
    may be missing and `Result` for an operation that may end in an error. */
module Wrappers {

  datatype Option<+T> = None | Some(value: T) {

    /** The wrapped value, or `default` when there is none. */
    function GetOr(default: T): T {
      match this
      case Some(v) => v
      case None => default
    }
  }

  datatype Result<+T, +E> = Success(value: T) | Failure(error: E) {

    predicate IsFailure() {
      Failure?
    }

    function PropagateFailure<U>(): Result<U, E>
      requires Failure?
    {
      Failure(error)
    }

    function Extract(): T
      requires Success?
    {
      value
    }
  }
}
